=== FILE: README.md ===
# Pioneer laserdisc player and CPU interrupt/memory-cache contract

This project models two parts of an MSX emulator.

**The emulated Pioneer laserdisc player** (`LaserdiscPlayer.cc`) is driven
by the MSX cassette port's remote-control line. The model covers:

- The wire decoder. It times each change of the line and recognises two
  infrared protocols: NEC frames (a 32-bit word of custom byte, its
  complement, code byte, its complement) and LD-1100 frames (a 30-bit
  word: three identical 10-bit groups separated by gaps).
- The command interpreter. It turns decoded buttons into:
  - transport commands: play, pause, stop, multispeed and its speed steps;
  - searches: seek to a frame or a chapter, or wait for a frame;
  - the ACK line the MSX software polls.
- The two timers:
  - the ACK timer, which ends a seek;
  - the per-frame timer, which advances the current frame and freezes
    at stop frames.

**The CPU core** (`CPUCore.hh`) keeps two pieces of state that other
devices depend on:

- The interrupt inputs. These are counters of raised maskable and
  non-maskable interrupts, plus the rising-edge flag of the NMI line.
- The memory cache. For each 256-byte line it keeps a direct read pointer
  and a direct write pointer, each with a flag that records the bus
  interface has already refused the line. `invalidateMemCache` makes the
  cache forget lines whose mapping changed.

`CPUCore.cc` is not part of this model:

- The counter, edge and cache models follow the declarations and doc
  comments of `CPUCore.hh`.
- `invalidateMemCache` is modelled as clearing both pointers and both
  flags of every line that meets the range. This is an assumption.

Files:

- `wrappers.dfy`: `Option`.
- `remote_words.dfy`: the field layout and validity checks of NEC and
  LD-1100 words.
- `remote_decoder.dfy`: the edge-timing state machine.
- `remote_frames.dfy`: whole frames as edge sequences, and their round
  trips through the decoder.
- `laserdisc_keys.dfy`: the button tables of both remotes.
- `laserdisc_player.dfy`: the player state and its operations.
- `player_invariant.dfy`: the invariant every operation keeps.
- `player_properties.dfy`: behaviour over several calls.
- `cpu_interrupts.dfy`: interrupt counters and the NMI edge.
- `cpu_memcache.dfy`: the memory cache and its coherence contract.

Times are absolute emulation times in whole microseconds. An
acknowledgement raised at `now` for `w` milliseconds runs out at exactly
`now + 1000 * w`. The duration between two edges is reduced modulo 2^32,
as the source's `unsigned usec` is.

## Model

| member | source | states |
|---|---|---|
| RemoteWords.NecValidIff | src/laserdisc/LaserdiscPlayer.cc:280-287 | a NEC word passes the complement check exactly when it is custom, ~custom, code, ~code for its own custom and code bytes |
| RemoteWords.NecWordFields | src/laserdisc/LaserdiscPlayer.cc:281-286 | the word built from a custom and a code byte passes the check, and its fields read back as those bytes |
| RemoteWords.Ld1100ValidIff | src/laserdisc/LaserdiscPlayer.cc:366-372 | an LD-1100 word passes the check exactly when its low 30 bits are three copies of the group 0x80 with a 5-bit command in bits 2-6 |
| RemoteWords.Ld1100WordFields | src/laserdisc/LaserdiscPlayer.cc:366-374 | the word built from a command passes the check, its command field reads back as that command, and it fits in 30 bits |
| RemoteDecoder.Step | src/laserdisc/LaserdiscPlayer.cc:197-323 | an unchanged level is ignored; a change records the new level; from idle only a rising edge starts a frame, with an empty register |
| RemoteDecoder.StepKeepsInv | src/laserdisc/LaserdiscPlayer.cc:213-322 | every edge keeps the bit counter within its protocol's bounds (32 for NEC, 30 for LD-1100, 10 or 20 at a gap), growing it by at most one |
| RemoteDecoder.OutsideWindowResets | src/laserdisc/LaserdiscPlayer.cc:220-322 | in every state except idle, a duration outside the state's acceptance windows returns the decoder to idle without an event |
| RemoteDecoder.NecSpaceShiftsOneBit | src/laserdisc/LaserdiscPlayer.cc:296-314 | an accepted NEC data space shifts exactly one bit into the register: 1 for 1400-1600 us, 0 for 400-700 us |
| RemoteDecoder.Ld1100SpaceShiftsOneBit | src/laserdisc/LaserdiscPlayer.cc:230-242 | an accepted LD-1100 data space shifts exactly one bit into the register: 0 for 450-550 us, 1 for 1350-1650 us |
| RemoteDecoder.OnlyDataSpacesShift | src/laserdisc/LaserdiscPlayer.cc:213-322 | every edge other than a data space leaves the register and counter alone |
| RemoteDecoder.FinalPulseEndsFrame | src/laserdisc/LaserdiscPlayer.cc:243-258 | the accepted pulse after the last bit of a frame returns the decoder to idle, whatever the word |
| RemoteFrames.NecButtonRoundTrip | src/laserdisc/LaserdiscPlayer.cc:267-295 | a NEC frame with in-window timings, sent to an idle decoder with the line low, decodes to exactly one button with the custom and code it was built from |
| RemoteFrames.NecRepeatRoundTrip | src/laserdisc/LaserdiscPlayer.cc:267-321 | a NEC repeat frame decodes to one repeat event and leaves the decoder idle |
| RemoteFrames.NecFrameRoundTrip | src/laserdisc/LaserdiscPlayer.cc:277-314 | the 32 data bits of any word, sent with in-window timings, leave exactly that word in the register |
| RemoteFrames.Ld1100FrameRoundTrip | src/laserdisc/LaserdiscPlayer.cc:229-265 | an LD-1100 frame with gaps after the 10th and 20th bits leaves the low 30 bits of its word in the register and hands them on |
| RemoteFrames.Ld1100CommandRoundTrip | src/laserdisc/LaserdiscPlayer.cc:229-265 | the frame for a command decodes to one word that passes the LD-1100 check and carries that command |
| LaserdiscKeys.NecDigitTable | src/laserdisc/LaserdiscPlayer.cc:556-565 | a NEC code means digit d exactly when d < 10 and the code is d's byte with its bits reversed |
| LaserdiscKeys.Ld1100DigitTable | src/laserdisc/LaserdiscPlayer.cc:426-465 | an LD-1100 command means digit d exactly when d < 10 and the command is d's four bits reversed followed by a 1 bit |
| LaserdiscPlayer.Create | src/laserdisc/LaserdiscPlayer.cc:146-155 | the constructed player is stopped, has no disc, holds the ACK line low, and its decoder is idle on a low line, whatever the uninitialised members hold (`seekNum` taken as a non-negative integer) |
| LaserdiscPlayer.InsertDisc | src/laserdisc/LaserdiscPlayer.cc:754-760 | loading an image replaces the disc and changes nothing else, so the invariant is kept |
| LaserdiscPlayer.SetAck | src/laserdisc/LaserdiscPlayer.cc:325-333 | the ACK line is high, a found wait frame is forgotten, the one pending deadline is replaced by `now` plus the wait in milliseconds, and nothing else changes |
| PlayerProperties.AckLineFollowsTimer | src/laserdisc/LaserdiscPlayer.cc:335-338 | the ACK line the machine reads is high exactly while an acknowledgement is pending or a wait frame was found, and always during a seek |
| LaserdiscPlayer.AckExpired | src/laserdisc/LaserdiscPlayer.cc:653-664 | the ACK timer ends any seek and drops the line, which then follows only a found wait frame; state, frames, speed and number entry are untouched |
| LaserdiscPlayer.Play | src/laserdisc/LaserdiscPlayer.cc:861-903 | without a disc nothing changes; while seeking only the state becomes playing; from stopped the disc spins up for 9.6 s from frame 1 at quarter speed; otherwise play resumes with a 46 ms acknowledgement; from stopped, only the state, ACK, frame, seek flag, first-frame flag, wait frame and speed change |
| LaserdiscPlayer.Pause | src/laserdisc/LaserdiscPlayer.cc:910-928 | a stopped player or one without a disc is unchanged; otherwise it pauses on the same frame with a 46 ms acknowledgement, and only the state and the ACK change |
| LaserdiscPlayer.Stop | src/laserdisc/LaserdiscPlayer.cc:930-939 | a player with a disc ends stopped, whatever its state, and nothing but the state changes; without a disc nothing changes |
| LaserdiscPlayer.SeekTarget | src/laserdisc/LaserdiscPlayer.cc:953-956 | a target frame of 0 or less becomes frame 1; other targets are kept |
| LaserdiscPlayer.SeekToFrame | src/laserdisc/LaserdiscPlayer.cc:941-991 | a stopped player or one without a disc is unchanged; otherwise it freezes on the target, seeking, acknowledged for the seek time of the distance travelled, with the wait frame cleared; number entry, speed, tick count, decoder and NEC history are kept |
| LaserdiscPlayer.SeekToChapter | src/laserdisc/LaserdiscPlayer.cc:993-1004 | a chapter the disc lacks (frame 0) changes nothing; a chapter it has leaves a running player frozen on the chapter's first frame, seeking, with ACK up and the wait frame cleared, exactly as a seek to that frame (so the ACK lasts the seek time) |
| LaserdiscPlayer.FrameStepFor | src/laserdisc/LaserdiscPlayer.cc:684-711 | every speed holds each picture for at least one tick |
| LaserdiscPlayer.FramesPerStep | src/laserdisc/LaserdiscPlayer.cc:729-739 | a multispeed step advances between one and three frames |
| LaserdiscPlayer.SetFrameStep | src/laserdisc/LaserdiscPlayer.cc:684-711 | only the tick count changes; afterwards a speed in range holds each picture for the number of ticks its table entry gives, at least one; any other speed changes nothing |
| PlayerProperties.VideoOutputNeedsSpinningDisc | src/laserdisc/LaserdiscPlayer.cc:1023-1041 | video output is available only from a disc that is playing, in multispeed or frozen, and never during a seek, while paused or while stopped |
| LaserdiscPlayer.CheckWaitFrame | src/laserdisc/LaserdiscPlayer.cc:715-721 | the ACK line rises exactly when it was high or the wait frame is set and reached; only the wait frame and found flag change |
| LaserdiscPlayer.AdvanceFrame | src/laserdisc/LaserdiscPlayer.cc:723-751 | normal play moves one frame on and freezes on a stop frame; states other than playing and multispeed are unchanged |
| LaserdiscPlayer.NextFrame | src/laserdisc/LaserdiscPlayer.cc:713-752 | one frame tick: the wait-frame check, then the advance; disc, seek flag and speed are kept |
| LaserdiscPlayer.FrameTick | src/laserdisc/LaserdiscPlayer.cc:665-681 | without video output nothing changes; with it, normal play moves one frame on and freezes exactly on a stop frame, multispeed counts down or moves by the speed's frames, a frozen picture stays, and ACK rises exactly when the wait frame is reached; disc, seek flag and speed are kept |
| LaserdiscPlayer.Ld1100Press | src/laserdisc/LaserdiscPlayer.cc:374-469 | "play", "pause" and "stop" abandon number entry and then play, pause a running player on the same frame with a 46 ms acknowledgement, or stop (changing nothing else); "chapter" turns a frame entry into a chapter entry and otherwise abandons entry; "frame" keeps a frame entry and otherwise abandons entry; "seek" acts as `Ld1100Seek`; a digit appends a decimal digit; an unknown command changes nothing; no command touches the disc or the remote line |
| LaserdiscPlayer.Ld1100Seek | src/laserdisc/LaserdiscPlayer.cc:407-424 | "seek" with nothing entered starts a fresh frame number; during wait-frame entry it changes nothing; otherwise it leaves number entry and seeks a running player to the frame entered modulo 100000, or to the first frame of the chapter entered modulo 100, a chapter the disc lacks changing nothing else |
| LaserdiscPlayer.RemoteButtonLd1100 | src/laserdisc/LaserdiscPlayer.cc:364-376 | a malformed word changes nothing; a well-formed word performs the command in its command field |
| LaserdiscPlayer.NecEntryEffect | src/laserdisc/LaserdiscPlayer.cc:542-596 | a digit appends a decimal digit, acknowledged; "frame", "wait frame" and "chapter" start a fresh number of their kind and change nothing else, "wait frame" unacknowledged and "chapter" acknowledged exactly when the disc has chapter 0; "end" always leaves number entry, acknowledged exactly when a number was being entered |
| LaserdiscPlayer.NecClear | src/laserdisc/LaserdiscPlayer.cc:588-596 | "X+" clears the number and the wait frame; it leaves number entry exactly when nothing was being entered or the number was already 0, and changes nothing else |
| LaserdiscPlayer.NecEnd | src/laserdisc/LaserdiscPlayer.cc:566-587 | "end" leaves number entry; with nothing entered it changes nothing and is unacknowledged; a frame entry seeks to the frame modulo 100000; a chapter entry seeks to the chapter's first frame modulo 100, or changes nothing if the disc lacks it; a wait entry sets the wait frame modulo 100000 and nothing else |
| LaserdiscPlayer.NecSpeed | src/laserdisc/LaserdiscPlayer.cc:610-622 | "C-" and "C+" keep the speed in range and, when the next speed exists, move to it and restart the tick count; C- at the slowest step and C+ at the fastest speed change nothing; only speed and tick count ever change |
| LaserdiscPlayer.NecMotionEffect | src/laserdisc/LaserdiscPlayer.cc:597-623 | "M+" enters multispeed with the tick count of the current speed, acknowledged, changing nothing else; "M-" changes nothing and is unacknowledged; "C-"/"C+" are acknowledged and touch only speed and tick count; every other button abandons number entry unacknowledged |
| LaserdiscPlayer.NecSeekKey | src/laserdisc/LaserdiscPlayer.cc:538-629 | a button is acknowledged for 46 ms from `now` exactly when the independent acceptance table says so, and otherwise the ACK line and its timer are untouched; a digit appends the digit; no button touches the disc or the remote line |
| LaserdiscPlayer.NecSeekEffect | src/laserdisc/LaserdiscPlayer.cc:538-629 | the button is accepted exactly when the acceptance table (every button but "wait frame", "M-", unknown buttons, "end" with nothing entered, and "chapter" without chapter 0) says so; a refused button leaves the ACK line and its timer alone |
| LaserdiscPlayer.NecTransport | src/laserdisc/LaserdiscPlayer.cc:630-640 | the result is unchanged or paused, playing or stopped; without a disc, or for any other button, nothing changes; "P+" plays; "P/" on a running player pauses on the same frame with a 46 ms acknowledgement; "P@" stops and changes nothing else |
| LaserdiscPlayer.RemoteButtonNec | src/laserdisc/LaserdiscPlayer.cc:472-641 | a foreign custom byte is ignored; the same code within 100 ms only refreshes the button time; any other button is remembered and interpreted (number entry only when not stopped) |
| LaserdiscPlayer.ExtControl | src/laserdisc/LaserdiscPlayer.cc:197-323 | an unchanged level changes nothing; a change records the level and its time, feeds the 32-bit microsecond count since the last edge to the decoder, ignores no event and NEC repeats, and hands a NEC button or LD-1100 word to its interpreter |
| LaserdiscPlayer.Dispatch | src/laserdisc/LaserdiscPlayer.cc:247-318 | no event and a NEC repeat (whose handler is empty) leave the player unchanged; a NEC button goes to the NEC interpreter and an LD-1100 word to the LD-1100 one; the disc and the decoder are never touched |
| PlayerInvariant.SetAckKeepsValid | src/laserdisc/LaserdiscPlayer.cc:325-333 | raising the ACK line keeps the player invariant |
| PlayerInvariant.PlayKeepsValid | src/laserdisc/LaserdiscPlayer.cc:861-903 | play keeps the invariant |
| PlayerInvariant.PauseKeepsValid | src/laserdisc/LaserdiscPlayer.cc:910-928 | pause keeps the invariant |
| PlayerInvariant.StopKeepsValid | src/laserdisc/LaserdiscPlayer.cc:930-939 | stop keeps the invariant |
| PlayerInvariant.SeekToFrameKeepsValid | src/laserdisc/LaserdiscPlayer.cc:941-991 | a frame seek keeps the invariant, a seek being always acknowledged |
| PlayerInvariant.SeekToChapterKeepsValid | src/laserdisc/LaserdiscPlayer.cc:993-1004 | a chapter seek keeps the invariant |
| PlayerInvariant.Ld1100PressKeepsValid | src/laserdisc/LaserdiscPlayer.cc:374-469 | every LD-1100 command keeps the invariant |
| PlayerInvariant.RemoteButtonLd1100KeepsValid | src/laserdisc/LaserdiscPlayer.cc:364-470 | every LD-1100 word keeps the invariant |
| PlayerInvariant.NecEndKeepsValid | src/laserdisc/LaserdiscPlayer.cc:566-587 | "end" keeps the invariant |
| PlayerInvariant.NecSeekKeyKeepsValid | src/laserdisc/LaserdiscPlayer.cc:538-629 | every NEC number-entry or motion button keeps the invariant while not stopped |
| PlayerInvariant.NecTransportKeepsValid | src/laserdisc/LaserdiscPlayer.cc:630-640 | the NEC transport buttons keep the invariant |
| PlayerInvariant.RemoteButtonNecKeepsValid | src/laserdisc/LaserdiscPlayer.cc:472-641 | every NEC button that arrives with the edge ending its frame keeps the invariant |
| PlayerInvariant.StepKeepsRemoteInv | src/laserdisc/LaserdiscPlayer.cc:213-322 | the decoder keeps its bounds across any edge, from an idle decoder with a stale counter included |
| PlayerInvariant.ExtControlKeepsValid | src/laserdisc/LaserdiscPlayer.cc:197-323 | every change of the control line keeps the invariant |
| PlayerInvariant.FrameTickKeepsValid | src/laserdisc/LaserdiscPlayer.cc:665-681 | every frame tick keeps the invariant |
| PlayerProperties.SeekTimeMonotone | src/laserdisc/LaserdiscPlayer.cc:966-972 | a seek takes at least 300 ms, and a longer seek never takes less time than a shorter one, across the step at 1000 frames too |
| PlayerProperties.SeekShowsTargetAfterAck | src/laserdisc/LaserdiscPlayer.cc:941-991 | a seek hides the picture and holds ACK for at least 300 ms; when ACK runs out the target frame shows, frozen |
| PlayerProperties.PlayFromStopSpinsUp | src/laserdisc/LaserdiscPlayer.cc:871-884 | play from stopped shows no picture for the 9.6 s spin-up, and frame 1 afterwards |
| PlayerProperties.Ticks | src/laserdisc/LaserdiscPlayer.cc:665-681 | repeated frame ticks keep the disc and the seek flag, and leave a player that is neither playing nor in multispeed on the same frame in the same state |
| PlayerProperties.MultispeedTick | src/laserdisc/LaserdiscPlayer.cc:723-739 | one multispeed tick counts down, and on the last count advances by the speed's frames and reloads the count |
| PlayerProperties.MultispeedCadence | src/laserdisc/LaserdiscPlayer.cc:723-739 | multispeed holds each picture for exactly `frameStep` ticks, then moves by the speed's frames |
| PlayerProperties.SpeedsOrdered | src/laserdisc/LaserdiscPlayer.cc:684-739 | a faster speed shows strictly more frames per tick than a slower one |
| PlayerProperties.PlayUntilStopFrame | src/laserdisc/LaserdiscPlayer.cc:740-751 | normal play shows the next frame on each tick until a stop frame, and freezes exactly there |
| PlayerProperties.FrozenStays | src/laserdisc/LaserdiscPlayer.cc:723-751 | a frozen picture stays frozen on the same frame through any number of ticks |
| PlayerProperties.DecimalAppend | src/laserdisc/LaserdiscPlayer.cc:426-465 | appending a digit multiplies the entered number by ten and adds the digit |
| PlayerProperties.LdDigits | src/laserdisc/LaserdiscPlayer.cc:426-465 | the LD-1100 digit commands for a digit string, one per digit, in order |
| PlayerProperties.Ld1100DigitsAccumulate | src/laserdisc/LaserdiscPlayer.cc:426-465 | a string of LD-1100 digits leaves the previous number shifted left by the string's length, plus the string's decimal value |
| PlayerProperties.Ld1100FrameSearch | src/laserdisc/LaserdiscPlayer.cc:407-424 | "seek d1..dn seek" seeks to the frame the digits spell, keeping its last five digits |
| PlayerProperties.Ld1100FrameSearchWithFrame | src/laserdisc/LaserdiscPlayer.cc:400-424 | "seek frame d1..dn seek", the form BASIC's frame search sends, seeks to the same frame as the form without "frame" |
| PlayerProperties.Ld1100ChapterSearch | src/laserdisc/LaserdiscPlayer.cc:391-424 | "seek chapter d1..dn seek" seeks to the chapter the digits spell, keeping its last two digits |
| PlayerProperties.Ld1100PressesAppend | src/laserdisc/LaserdiscPlayer.cc:374-469 | commands sent in two batches act as the concatenated batch |
| PlayerProperties.Ld1100WordCarriesCommand | src/laserdisc/LaserdiscPlayer.cc:364-376 | the word sent for a command performs exactly that command |
| PlayerProperties.Ld1100OnlyCommandMatters | src/laserdisc/LaserdiscPlayer.cc:364-376 | two well-formed LD-1100 words with the same command field have the same effect; a malformed word is ignored (by `RemoteButtonLd1100`) |
| PlayerProperties.NecRepeatIgnored | src/laserdisc/LaserdiscPlayer.cc:523-533 | the same NEC code within 100 ms only refreshes the button time |
| PlayerProperties.NecButtonRemembered | src/laserdisc/LaserdiscPlayer.cc:523-537 | a button that is not a repeat is remembered with its time |
| PlayerProperties.NecStoppedOnlyPlays | src/laserdisc/LaserdiscPlayer.cc:538-641 | a stopped player reacts to no NEC button but "play" |
| PlayerProperties.NecDoubleDigitNeedsPause | src/laserdisc/LaserdiscPlayer.cc:523-565 | pressing a digit twice within 100 ms enters it once |
| PlayerProperties.NecEndSeeksFrame | src/laserdisc/LaserdiscPlayer.cc:566-629 | "end" after a frame number seeks to it, and the 46 ms acknowledgement replaces the seek's own |
| PlayerProperties.NecEndSeeksChapter | src/laserdisc/LaserdiscPlayer.cc:572-575 | "end" after a chapter number seeks to that chapter's first frame, keeping two digits; a chapter the disc lacks is not searched for, yet "end" is still acknowledged for 46 ms |
| PlayerProperties.NecMultiForwardEntersMultispeed | src/laserdisc/LaserdiscPlayer.cc:606-609 | "M+" on a running player enters multispeed at the current speed with that speed's tick count, on the same frame, acknowledged for 46 ms, leaving number entry alone |
| PlayerProperties.NecClearForgetsWaitFrame | src/laserdisc/LaserdiscPlayer.cc:588-596 | "X+" forgets the wait frame, so reaching it no longer raises ACK; pressed twice it always leaves number entry |
| PlayerProperties.NecChapterKeyAckedIffChapterZero | src/laserdisc/LaserdiscPlayer.cc:551-555 | "chapter" starts a chapter number; it is acknowledged when the disc has chapter 0 and otherwise leaves the ACK line and its timer as they were |
| PlayerProperties.NecWaitFrameReached | src/laserdisc/LaserdiscPlayer.cc:575-581 | "wait frame" n "end" sets the frame at which ACK rises |
| CpuInterrupts.RaiseIrq | src/cpu/CPUCore.hh:69-73 | raising the maskable line adds one to its count and touches nothing else |
| CpuInterrupts.LowerIrq | src/cpu/CPUCore.hh:75-79 | lowering the maskable line takes one from its count and touches nothing else |
| CpuInterrupts.RaiseNmi | src/cpu/CPUCore.hh:81-85 | raising the non-maskable line adds one to its count and sets the edge flag exactly when the count was 0, so that the raise makes the line active, or an edge was already pending |
| CpuInterrupts.LowerNmi | src/cpu/CPUCore.hh:87-91 | lowering the non-maskable line takes one from its count and leaves a pending edge pending |
| CpuInterrupts.EnterNmi | src/cpu/CPUCore.hh:132-137 | jumping to the NMI handler clears the edge flag and nothing else |
| CpuInterrupts.RaiseLowerIrq | src/cpu/CPUCore.hh:69-79 | raise and lower of the maskable line undo each other |
| CpuInterrupts.RaiseLowerNmi | src/cpu/CPUCore.hh:81-91 | raise then lower of the non-maskable line restores its count, keeping the edge it may have made |
| CpuInterrupts.OverlappingNmiRaisesMakeOneEdge | src/cpu/CPUCore.hh:132-137 | two overlapping raises of the non-maskable line make one edge |
| CpuInterrupts.NmiReleasedThenRaisedIsNewEdge | src/cpu/CPUCore.hh:132-137 | once every raiser has lowered the line, the next raise is a new edge |
| CpuInterrupts.ApplyIrqCounts | src/cpu/CPUCore.hh:125-126 | the maskable count after any sequence of raises and lowers is the start count plus raises minus lowers |
| CpuInterrupts.ApplyNmiCounts | src/cpu/CPUCore.hh:125-137 | the same for the non-maskable count, and a pending edge is never lost by raises and lowers |
| CpuInterrupts.WellPairedNeverNegative | src/cpu/CPUCore.hh:69-91 | from reset, if no device lowers what it has not raised, both counts stay non-negative, and each line is active exactly while a raise is unmatched |
| CpuInterrupts.BalancedEndsInactive | src/cpu/CPUCore.hh:69-79 | a balanced well-paired sequence leaves the maskable line inactive and may be followed by any well-paired sequence |
| CpuMemCache.ReadMem | src/cpu/CPUCore.hh:57-61 | a held read line serves the byte from its memory without touching the cache; a refused line goes to the interface; an untried line reads through the interface and caches the granted pointer or records the refusal, other lines unchanged; the write side never changes |
| CpuMemCache.WriteMem | src/cpu/CPUCore.hh:63-67 | a held write line stores into its memory; a refused line goes to the interface; an untried line writes through the interface and caches the granted pointer or records the refusal, other lines unchanged; the read side and the mapping never change |
| CpuMemCache.ClearSide | src/cpu/CPUCore.hh:48 | every line meeting the range loses its pointer and its refusal; every other line is unchanged |
| CpuMemCache.Invalidate | src/cpu/CPUCore.hh:48 | invalidation clears both sides and keeps the cache well formed for every bus |
| CpuMemCache.EmptyIsCoherent | src/cpu/CPUCore.hh:110-114 | a reset cache agrees with every mapping |
| CpuMemCache.ReadMemIsTransparent | src/cpu/CPUCore.hh:57-61 | while coherent, a read through the cache returns what the interface would, and the cache stays coherent |
| CpuMemCache.WriteMemIsTransparent | src/cpu/CPUCore.hh:63-67 | while coherent, a write through the cache changes memory exactly as the interface's write would, and the cache stays coherent |
| CpuMemCache.InvalidatedReadIsFresh | src/cpu/CPUCore.hh:48 | a read inside an invalidated range is served afresh, whatever the cache held before |
| CpuMemCache.RemapThenInvalidateIsCoherent | src/cpu/CPUCore.hh:48 | remapping a line and invalidating it keeps a coherent cache coherent with the new mapping |
| CpuMemCache.RemapWithoutInvalidateIsStale | src/cpu/CPUCore.hh:110-114 | a remap that is not followed by an invalidation keeps serving the old memory through the held pointer |

## Left out

- Audio: sample clock, resampling, muting and `generateChannels`. None of these affect the command or frame logic modelled here.
- Video decoding and rendering: the Ogg reader, raw frames, the blank picture and `getFrame`. The disc is modelled as its chapter table and its set of stop frames.
- The console command front end (`LaserdiscCommand`) and the file-name resolution in `setImageName`. Loading a disc is `InsertDisc`.
- `extInt` always reports no interrupt; `buttonRepeat` only logs. A NEC repeat event leaves the player unchanged.
- LaserdiscPlayer.IsVideoOutputAvailable: the source also reports the result to the machine's video switch (`ldcontrol.videoIn`, line 1038); that device is not part of this model, so only the result is modelled.
- LaserdiscPlayer.FrameTick: assumes the renderer always supplies a frame buffer. When it does not (line 666), the source skips the tick entirely.
- `playingFromSample` and the sample positions computed in `play`, `pause`, `seekFrame` and `nextFrame`. Only the audio stream reads them.
- The scheduler is not modelled. `AckExpired` and `FrameTick` are the two timer callbacks, called by whoever drives time. The frame timer's rescheduling is not modelled.
- The speed enumeration and the widths of `seekNum`, `currentFrame` and `waitFrame` are in `LaserdiscPlayer.hh`, which is not part of this model:
  - speeds are modelled as consecutive integers, slowest first, matching the order the "C-"/"C+" code relies on;
  - the numbers are unbounded integers, `seekNum` a non-negative one (digit entry never makes it negative).
- LaserdiscPlayer.Ld1100Press: appending a digit computes `seekNum * 10 + d` on unbounded integers. The width of `seekNum` is declared in `LaserdiscPlayer.hh`, which is not part of this model. If it is a 32-bit `int`, a tenth digit can overflow it, and the search is then no longer for the last five (or two) digits entered; the model always keeps those digits exactly.
- LaserdiscPlayer.NecEntryEffect: the same unbounded `seekNum * 10 + d`, for the NEC digits.
- LaserdiscPlayer.SeekToFrame: the frame distance is an unbounded integer.
- LaserdiscPlayer.NecSeekEffect: "chapter" and "end" read the disc's chapter table. A player that is not stopped always has a disc, so the model requires it.
- NEC buttons recognised by the debug name table but without an action ("D+", "L+", "S+", previous/next chapter) are unknown buttons here, as in the source: while not stopped they abandon number entry unacknowledged, and they are remembered as the last button.
- `CPUCore.cc` is not part of this model. This has three consequences:
  - the NMI edge is modelled as set when a raise finds the count at zero, from the header comment at lines 132-137;
  - the cache lookup follows the doc comments at lines 57-67: a held pointer, else a refusal flag, else ask the interface;
  - `invalidateMemCache` clears the lines meeting the range.
- The bus interface is modelled by the memory it maps: a physical store with, per line, the base it would grant for reading and for writing. Device reads and writes on unmapped lines are a fixed input table and an output log, not device behaviour.
- CPU instruction execution, dispatch tables, the exit-loop flag, clock frequency and the debugger interface. These are outside the interrupt and cache contract.
- Interrupt acceptance (`nmi()`, `irq0()`-`irq2()`, the IFF flags and interrupt modes). Their bodies are in `CPUCore.cc`, which is not part of this model; the model stops at the counters and the edge flag.

=== FILE: cpu_interrupts.dfy ===
/**
 * The CPU's interrupt inputs.  Devices share the maskable interrupt line
 * and the non-maskable one: each line keeps a count of the devices that
 * currently hold it raised, so the line is active while its count is
 * positive and a device lowers only what it raised.  The non-maskable line
 * is edge-triggered: a flag remembers that the line went from inactive to
 * active, and the CPU clears it when it jumps to the handler.
 */
module CpuInterrupts {

  datatype IrqState = IrqState(irqStatus: int, nmiStatus: int, nmiEdge: bool)

  /** After a reset no device holds a line and no edge is pending. */
  const Reset := IrqState(0, 0, false)

  predicate IrqActive(s: IrqState) { s.irqStatus > 0 }

  predicate NmiActive(s: IrqState) { s.nmiStatus > 0 }

  /** A device raises the maskable line. */
  function RaiseIrq(s: IrqState): (r: IrqState)
    ensures r.irqStatus == s.irqStatus + 1
    ensures r.nmiStatus == s.nmiStatus && r.nmiEdge == s.nmiEdge
  {
    s.(irqStatus := s.irqStatus + 1)
  }

  /** A device lowers the maskable line it raised before. */
  function LowerIrq(s: IrqState): (r: IrqState)
    ensures r.irqStatus == s.irqStatus - 1
    ensures r.nmiStatus == s.nmiStatus && r.nmiEdge == s.nmiEdge
  {
    s.(irqStatus := s.irqStatus - 1)
  }

  /** A device raises the non-maskable line; if the line was inactive this
      is a rising edge. */
  function RaiseNmi(s: IrqState): (r: IrqState)
    ensures r.nmiStatus == s.nmiStatus + 1 && r.irqStatus == s.irqStatus
    ensures r.nmiEdge <==> s.nmiEdge || s.nmiStatus == 0
  {
    s.(nmiStatus := s.nmiStatus + 1, nmiEdge := s.nmiEdge || s.nmiStatus == 0)
  }

  /** A device lowers the non-maskable line it raised before; a falling
      edge leaves a pending rising edge pending. */
  function LowerNmi(s: IrqState): (r: IrqState)
    ensures r.nmiStatus == s.nmiStatus - 1
    ensures r.irqStatus == s.irqStatus && r.nmiEdge == s.nmiEdge
  {
    s.(nmiStatus := s.nmiStatus - 1)
  }

  /** The CPU jumps to the non-maskable interrupt handler. */
  function EnterNmi(s: IrqState): (r: IrqState)
    ensures !r.nmiEdge
    ensures r.irqStatus == s.irqStatus && r.nmiStatus == s.nmiStatus
  {
    s.(nmiEdge := false)
  }

  /** Raising and then lowering the maskable line restores the state. */
  lemma RaiseLowerIrq(s: IrqState)
    ensures LowerIrq(RaiseIrq(s)) == s
    ensures RaiseIrq(LowerIrq(s)) == s
  {
  }

  /** Raising and then lowering the non-maskable line restores its count;
      the edge it may have made stays pending. */
  lemma RaiseLowerNmi(s: IrqState)
    ensures LowerNmi(RaiseNmi(s)) == s.(nmiEdge := s.nmiEdge || s.nmiStatus == 0)
  {
  }

  /** Two devices raising the non-maskable line one after the other make a
      single edge: once the CPU has taken the first, the second raise finds
      the line already active. */
  lemma OverlappingNmiRaisesMakeOneEdge(s: IrqState)
    requires s.nmiStatus == 0
    ensures RaiseNmi(s).nmiEdge
    ensures !RaiseNmi(EnterNmi(RaiseNmi(s))).nmiEdge
  {
  }

  /** Once both have lowered it again, the next raise is a new edge. */
  lemma NmiReleasedThenRaisedIsNewEdge(s: IrqState)
    requires s.nmiStatus == 0
    ensures RaiseNmi(LowerNmi(LowerNmi(RaiseNmi(EnterNmi(RaiseNmi(s)))))).nmiEdge
  {
  }

  /** What devices do to a line. */
  datatype LineOp = Raise | Lower

  function ApplyIrq(s: IrqState, ops: seq<LineOp>): (r: IrqState)
    ensures r.nmiStatus == s.nmiStatus && r.nmiEdge == s.nmiEdge
    decreases ops
  {
    if ops == [] then s
    else ApplyIrq(if ops[0] == Raise then RaiseIrq(s) else LowerIrq(s), ops[1..])
  }

  function ApplyNmi(s: IrqState, ops: seq<LineOp>): (r: IrqState)
    ensures r.irqStatus == s.irqStatus
    decreases ops
  {
    if ops == [] then s
    else ApplyNmi(if ops[0] == Raise then RaiseNmi(s) else LowerNmi(s), ops[1..])
  }

  /** How often `op` occurs in `ops`. */
  function Count(ops: seq<LineOp>, op: LineOp): nat {
    if ops == [] then 0 else (if ops[0] == op then 1 else 0) + Count(ops[1..], op)
  }

  /** Every prefix lowers the line no more often than it raises it: no
      device lowers what it has not raised. */
  predicate WellPaired(ops: seq<LineOp>) {
    forall i :: 0 <= i <= |ops| ==> Count(ops[..i], Lower) <= Count(ops[..i], Raise)
  }

  /** The maskable count is the number of raises minus the number of
      lowers. */
  lemma {:induction false} ApplyIrqCounts(s: IrqState, ops: seq<LineOp>)
    ensures ApplyIrq(s, ops).irqStatus == s.irqStatus + Count(ops, Raise) - Count(ops, Lower)
    decreases ops
  {
    if ops != [] {
      ApplyIrqCounts(if ops[0] == Raise then RaiseIrq(s) else LowerIrq(s), ops[1..]);
    }
  }

  /** The non-maskable count is the number of raises minus the number of
      lowers; a pending edge is never lost along the way. */
  lemma {:induction false} ApplyNmiCounts(s: IrqState, ops: seq<LineOp>)
    ensures ApplyNmi(s, ops).nmiStatus == s.nmiStatus + Count(ops, Raise) - Count(ops, Lower)
    ensures s.nmiEdge ==> ApplyNmi(s, ops).nmiEdge
    decreases ops
  {
    if ops != [] {
      ApplyNmiCounts(if ops[0] == Raise then RaiseNmi(s) else LowerNmi(s), ops[1..]);
    }
  }

  lemma {:induction false} CountAppend(a: seq<LineOp>, b: seq<LineOp>, op: LineOp)
    ensures Count(a + b, op) == Count(a, op) + Count(b, op)
  {
    if a == [] {
      assert a + b == b;
    } else {
      assert (a + b)[1..] == a[1..] + b;
      CountAppend(a[1..], b, op);
    }
  }

  /** Starting from a reset, well-paired raises and lowers never drive the
      maskable count below zero, and the line is active exactly while some
      raise is still unmatched. */
  lemma WellPairedNeverNegative(ops: seq<LineOp>, i: nat)
    requires WellPaired(ops) && i <= |ops|
    ensures ApplyIrq(Reset, ops[..i]).irqStatus >= 0
    ensures IrqActive(ApplyIrq(Reset, ops[..i])) <==> Count(ops[..i], Lower) < Count(ops[..i], Raise)
    ensures ApplyNmi(Reset, ops[..i]).nmiStatus >= 0
    ensures NmiActive(ApplyNmi(Reset, ops[..i])) <==> Count(ops[..i], Lower) < Count(ops[..i], Raise)
  {
    ApplyIrqCounts(Reset, ops[..i]);
    ApplyNmiCounts(Reset, ops[..i]);
  }

  /** A well-paired sequence that raises as often as it lowers leaves the
      line inactive, and is still well-paired when more ops follow. */
  lemma BalancedEndsInactive(ops: seq<LineOp>, more: seq<LineOp>)
    requires WellPaired(ops) && WellPaired(more)
    requires Count(ops, Raise) == Count(ops, Lower)
    ensures !IrqActive(ApplyIrq(Reset, ops))
    ensures WellPaired(ops + more)
  {
    ApplyIrqCounts(Reset, ops);
    assert ops[..|ops|] == ops;
    forall i | 0 <= i <= |ops + more|
      ensures Count((ops + more)[..i], Lower) <= Count((ops + more)[..i], Raise)
    {
      if i <= |ops| {
        assert (ops + more)[..i] == ops[..i];
      } else {
        assert (ops + more)[..i] == ops + more[..i - |ops|];
        CountAppend(ops, more[..i - |ops|], Lower);
        CountAppend(ops, more[..i - |ops|], Raise);
      }
    }
  }
}

=== FILE: cpu_memcache.dfy ===
/**
 * The CPU's memory cache: for each 256-byte line of the 64K address space
 * the CPU may hold a pointer straight into the memory behind the line, one
 * for reading and one for writing, each with a flag recording that the
 * bus interface has already refused the line.  A read or write goes through
 * the held pointer when there is one, and otherwise through the interface;
 * an untried line is offered to the interface first.
 *
 * The interface is modelled by the memory it maps: a physical store `ram`
 * and, per line, the base in `ram` it would hand out for reading and for
 * writing (none for lines that are not plain memory, such as memory-mapped
 * devices).  Accesses to such lines go to the device side: reads come from
 * `ioIn`, writes are appended to `ioOut`.
 */
module CpuMemCache {
  import opened Wrappers

  newtype Addr = x: int | 0 <= x < 0x1_0000

  /** 256 lines of 256 bytes cover the address space. */
  const LineSize: nat := 256
  const NumLines: nat := 256

  function LineOf(a: Addr): (l: nat)
    ensures l < NumLines
  {
    a as int / LineSize
  }

  function OffsetOf(a: Addr): (o: nat)
    ensures o < LineSize
  {
    a as int % LineSize
  }

  /** What the bus interface maps. */
  datatype Bus = Bus(
    ram: seq<bv8>,
    readPage: seq<Option<nat>>,
    writePage: seq<Option<nat>>,
    ioIn: seq<bv8>,
    ioOut: seq<(Addr, bv8)>)

  /** A base in `ram` that a line can point at. */
  predicate FitsRam(ram: seq<bv8>, base: Option<nat>) {
    base.Some? ==> base.value + LineSize <= |ram|
  }

  ghost predicate BusOk(bus: Bus) {
    && |bus.readPage| == NumLines && |bus.writePage| == NumLines && |bus.ioIn| == 0x1_0000
    && (forall l :: 0 <= l < NumLines ==> FitsRam(bus.ram, bus.readPage[l]))
    && (forall l :: 0 <= l < NumLines ==> FitsRam(bus.ram, bus.writePage[l]))
  }

  /** The interface's own read, used when the line is not cached. */
  function SlowRead(bus: Bus, a: Addr): bv8
    requires BusOk(bus)
  {
    match bus.readPage[LineOf(a)]
    case Some(base) => bus.ram[base + OffsetOf(a)]
    case None => bus.ioIn[a]
  }

  /** The interface's own write, used when the line is not cached. */
  function SlowWrite(bus: Bus, a: Addr, v: bv8): (r: Bus)
    requires BusOk(bus)
    ensures BusOk(r) && |r.ram| == |bus.ram|
  {
    match bus.writePage[LineOf(a)]
    case Some(base) => bus.(ram := bus.ram[base + OffsetOf(a) := v])
    case None => bus.(ioOut := bus.ioOut + [(a, v)])
  }

  /** One side of the cache: a held pointer per line, and whether the line
      has been tried. */
  datatype Side = Side(line: seq<Option<nat>>, tried: seq<bool>)

  datatype MemCache = MemCache(read: Side, write: Side)

  /** Every line has an entry, and every held pointer points into `ram`. */
  ghost predicate SideOk(s: Side, ram: seq<bv8>) {
    && |s.line| == NumLines && |s.tried| == NumLines
    && forall l :: 0 <= l < NumLines ==> FitsRam(ram, s.line[l])
  }

  ghost predicate CacheOk(c: MemCache, bus: Bus) {
    BusOk(bus) && SideOk(c.read, bus.ram) && SideOk(c.write, bus.ram)
  }

  const EmptySide := Side(seq(NumLines, _ => None), seq(NumLines, _ => false))

  /** The cache after a reset: nothing held, nothing tried. */
  const Empty := MemCache(EmptySide, EmptySide)

  /** Every held pointer is the one the interface would hand out now. */
  ghost predicate Coherent(c: MemCache, bus: Bus)
    requires CacheOk(c, bus)
  {
    && (forall l :: 0 <= l < NumLines && c.read.line[l].Some? ==> c.read.line[l] == bus.readPage[l])
    && (forall l :: 0 <= l < NumLines && c.write.line[l].Some? ==> c.write.line[l] == bus.writePage[l])
  }

  /** One side's lookup of the line of `a`: the held pointer, or the one the
      interface grants to an untried line (`page`), recording a refusal. */
  function Lookup(s: Side, l: nat, page: Option<nat>): (r: (Option<nat>, Side))
    requires |s.line| == NumLines && |s.tried| == NumLines && l < NumLines
    ensures |r.1.line| == NumLines && |r.1.tried| == NumLines
    ensures s.line[l].Some? ==> r == (s.line[l], s)
    ensures s.line[l].None? && s.tried[l] ==> r == (None, s)
    ensures s.line[l].None? && !s.tried[l] && page.Some? ==> r == (page, s.(line := s.line[l := page]))
    ensures s.line[l].None? && !s.tried[l] && page.None? ==> r == (None, s.(tried := s.tried[l := true]))
  {
    if s.line[l].Some? then (s.line[l], s)
    else if s.tried[l] then (None, s)
    else if page.Some? then (page, s.(line := s.line[l := page]))
    else (None, s.(tried := s.tried[l := true]))
  }

  /** Reads a byte: from the cached line if possible, otherwise through the
      interface. */
  function ReadMem(c: MemCache, bus: Bus, a: Addr): (r: (bv8, MemCache))
    requires CacheOk(c, bus)
    ensures CacheOk(r.1, bus)
    ensures r.1.write == c.write
    ensures c.read.line[LineOf(a)].Some? ==>
              r == (bus.ram[c.read.line[LineOf(a)].value + OffsetOf(a)], c)
    ensures c.read.line[LineOf(a)].None? && c.read.tried[LineOf(a)] ==> r == (SlowRead(bus, a), c)
    ensures c.read.line[LineOf(a)].None? && !c.read.tried[LineOf(a)] ==>
              && r.0 == SlowRead(bus, a)
              && r.1.read.line == c.read.line[LineOf(a) := bus.readPage[LineOf(a)]]
              && r.1.read.tried == c.read.tried[LineOf(a) := bus.readPage[LineOf(a)].None?]
  {
    var (ptr, side) := Lookup(c.read, LineOf(a), bus.readPage[LineOf(a)]);
    var value := match ptr
      case Some(base) => bus.ram[base + OffsetOf(a)]
      case None => SlowRead(bus, a);
    (value, c.(read := side))
  }

  /** Writes a byte: into the cached line if possible, otherwise through the
      interface. */
  function WriteMem(c: MemCache, bus: Bus, a: Addr, v: bv8): (r: (MemCache, Bus))
    requires CacheOk(c, bus)
    ensures CacheOk(r.0, r.1) && |r.1.ram| == |bus.ram|
    ensures r.0.read == c.read
    ensures r.1.readPage == bus.readPage && r.1.writePage == bus.writePage
    ensures c.write.line[LineOf(a)].Some? ==>
              r == (c, bus.(ram := bus.ram[c.write.line[LineOf(a)].value + OffsetOf(a) := v]))
    ensures c.write.line[LineOf(a)].None? && c.write.tried[LineOf(a)] ==> r == (c, SlowWrite(bus, a, v))
    ensures c.write.line[LineOf(a)].None? && !c.write.tried[LineOf(a)] ==>
              && r.1 == SlowWrite(bus, a, v)
              && r.0.write.line == c.write.line[LineOf(a) := bus.writePage[LineOf(a)]]
              && r.0.write.tried == c.write.tried[LineOf(a) := bus.writePage[LineOf(a)].None?]
  {
    var (ptr, side) := Lookup(c.write, LineOf(a), bus.writePage[LineOf(a)]);
    var bus' := match ptr
      case Some(base) => bus.(ram := bus.ram[base + OffsetOf(a) := v])
      case None => SlowWrite(bus, a, v);
    (c.(write := side), bus')
  }

  /** Whether line `l` shares a byte with `[start, start + size)`. */
  predicate Overlaps(l: nat, start: Addr, size: nat) {
    l * LineSize < start as int + size && start as int < (l + 1) * LineSize
  }

  /** Forgets both sides of every line that meets `[start, start + size)`:
      the pointers and the refusals. */
  function Invalidate(c: MemCache, start: Addr, size: nat): (r: MemCache)
    requires |c.read.line| == NumLines && |c.read.tried| == NumLines
    requires |c.write.line| == NumLines && |c.write.tried| == NumLines
    ensures forall bus :: CacheOk(c, bus) ==> CacheOk(r, bus)
  {
    MemCache(ClearSide(c.read, start, size), ClearSide(c.write, start, size))
  }

  function ClearSide(s: Side, start: Addr, size: nat): (r: Side)
    requires |s.line| == NumLines && |s.tried| == NumLines
    ensures |r.line| == NumLines && |r.tried| == NumLines
    ensures forall l :: 0 <= l < NumLines && Overlaps(l, start, size) ==> r.line[l].None? && !r.tried[l]
    ensures forall l :: 0 <= l < NumLines && !Overlaps(l, start, size) ==> r.line[l] == s.line[l] && r.tried[l] == s.tried[l]
  {
    Side(seq(NumLines, l requires 0 <= l < NumLines => if Overlaps(l, start, size) then None else s.line[l]),
         seq(NumLines, l requires 0 <= l < NumLines => if Overlaps(l, start, size) then false else s.tried[l]))
  }

  /** The interface changes which memory backs line `l` for reading (a bank
      switch). */
  function RemapRead(bus: Bus, l: nat, page: Option<nat>): (r: Bus)
    requires BusOk(bus) && l < NumLines && FitsRam(bus.ram, page)
    ensures BusOk(r)
  {
    bus.(readPage := bus.readPage[l := page])
  }

  /** A reset cache holds nothing, so it agrees with every mapping. */
  lemma EmptyIsCoherent(bus: Bus)
    requires BusOk(bus)
    ensures CacheOk(Empty, bus) && Coherent(Empty, bus)
  {
  }

  /** While the cache is coherent, a read through it returns what the
      interface would have returned, and the cache stays coherent. */
  lemma ReadMemIsTransparent(c: MemCache, bus: Bus, a: Addr)
    requires CacheOk(c, bus) && Coherent(c, bus)
    ensures ReadMem(c, bus, a).0 == SlowRead(bus, a)
    ensures Coherent(ReadMem(c, bus, a).1, bus)
  {
  }

  /** While the cache is coherent, a write through it changes the memory
      exactly as the interface's own write would, and the cache stays
      coherent. */
  lemma WriteMemIsTransparent(c: MemCache, bus: Bus, a: Addr, v: bv8)
    requires CacheOk(c, bus) && Coherent(c, bus)
    ensures WriteMem(c, bus, a, v).1 == SlowWrite(bus, a, v)
    ensures Coherent(WriteMem(c, bus, a, v).0, WriteMem(c, bus, a, v).1)
  {
  }

  /** Every address of `[start, start + size)` lies in a line that meets
      the range. */
  lemma AddressInOverlap(a: Addr, start: Addr, size: nat)
    requires start as int <= a as int < start as int + size
    ensures Overlaps(LineOf(a), start, size)
  {
    assert LineOf(a) * LineSize <= a as int < (LineOf(a) + 1) * LineSize;
  }

  /** After invalidating a range, a read inside it is served afresh by the
      interface, whatever the cache held before. */
  lemma InvalidatedReadIsFresh(c: MemCache, bus: Bus, start: Addr, size: nat, a: Addr)
    requires CacheOk(c, bus)
    requires start as int <= a as int < start as int + size
    ensures ReadMem(Invalidate(c, start, size), bus, a).0 == SlowRead(bus, a)
  {
    AddressInOverlap(a, start, size);
  }

  /** Remapping a line and then invalidating it leaves a coherent cache
      coherent with the new mapping. */
  lemma RemapThenInvalidateIsCoherent(c: MemCache, bus: Bus, l: nat, page: Option<nat>)
    requires CacheOk(c, bus) && Coherent(c, bus)
    requires l < NumLines && FitsRam(bus.ram, page)
    ensures CacheOk(Invalidate(c, (l * LineSize) as Addr, LineSize), RemapRead(bus, l, page))
    ensures Coherent(Invalidate(c, (l * LineSize) as Addr, LineSize), RemapRead(bus, l, page))
  {
    var c' := Invalidate(c, (l * LineSize) as Addr, LineSize);
    var bus' := RemapRead(bus, l, page);
    forall k | 0 <= k < NumLines && c'.read.line[k].Some?
      ensures c'.read.line[k] == bus'.readPage[k]
    {
      assert !Overlaps(k, (l * LineSize) as Addr, LineSize);
      assert k != l;
    }
  }

  /** Without the invalidation a remapped line keeps serving the old
      memory: the caller's obligation to invalidate cannot be dropped. */
  lemma RemapWithoutInvalidateIsStale(c: MemCache, bus: Bus, a: Addr, page: nat)
    requires CacheOk(c, bus) && Coherent(c, bus)
    requires c.read.line[LineOf(a)].Some? && FitsRam(bus.ram, Some(page))
    requires bus.ram[page + OffsetOf(a)] != bus.ram[c.read.line[LineOf(a)].value + OffsetOf(a)]
    ensures CacheOk(c, RemapRead(bus, LineOf(a), Some(page)))
    ensures ReadMem(c, RemapRead(bus, LineOf(a), Some(page)), a).0
         != SlowRead(RemapRead(bus, LineOf(a), Some(page)), a)
  {
  }
}

=== FILE: laserdisc_keys.dfy ===
/**
 * The buttons the laserdisc player understands on its two remote-control
 * protocols, decoded from the raw codes the wire decoder delivers.
 *
 * Both tables send the ten digits with their bits reversed: a NEC digit
 * code is the digit's byte read backwards, and an LD-1100 digit command is
 * the digit's four bits read backwards followed by a 1 bit.
 */
module LaserdiscKeys {

  /** The buttons of the NEC (Pioneer CU-CLD037) remote that the player
      reacts to. */
  datatype NecKey =
    | WaitFrameKey       // 0xfa: start entering a frame to wait for
    | FrameKey           // 0x82: start entering a frame number
    | ChapterKey         // 0x02: start entering a chapter number
    | DigitKey(d: nat)   // 0-9
    | EndKey             // 0x42: finish the number being entered
    | ClearKey           // 0xa2: "X+", clear the number being entered
    | MultiBackKey       // 0xaa: "M-", multispeed backwards (unsupported)
    | MultiForwardKey    // 0x1a: "M+", multispeed forwards
    | SlowerKey          // 0x62: "C-"
    | FasterKey          // 0xe2: "C+"
    | PauseKey           // 0x18: "P/"
    | PlayKey            // 0xe8: "P+"
    | StopKey            // 0x68: "P@"
    | OtherKey           // anything else

  /** The button of a NEC code byte. */
  function NecKeyOf(code: bv32): NecKey {
    if code == 0xfa then WaitFrameKey
    else if code == 0x82 then FrameKey
    else if code == 0x02 then ChapterKey
    else if code == 0x00 then DigitKey(0)
    else if code == 0x80 then DigitKey(1)
    else if code == 0x40 then DigitKey(2)
    else if code == 0xc0 then DigitKey(3)
    else if code == 0x20 then DigitKey(4)
    else if code == 0xa0 then DigitKey(5)
    else if code == 0x60 then DigitKey(6)
    else if code == 0xe0 then DigitKey(7)
    else if code == 0x10 then DigitKey(8)
    else if code == 0x90 then DigitKey(9)
    else if code == 0x42 then EndKey
    else if code == 0xa2 then ClearKey
    else if code == 0xaa then MultiBackKey
    else if code == 0x1a then MultiForwardKey
    else if code == 0x62 then SlowerKey
    else if code == 0xe2 then FasterKey
    else if code == 0x18 then PauseKey
    else if code == 0xe8 then PlayKey
    else if code == 0x68 then StopKey
    else OtherKey
  }

  /** The commands of the LD-1100 protocol that the player reacts to. */
  datatype Ld1100Key =
    | LdPlayKey          // 0x14
    | LdPauseKey         // 0x0a
    | LdStopKey          // 0x1e
    | LdChapterKey       // 0x06
    | LdFrameKey         // 0x0b
    | LdSeekKey          // 0x1a
    | LdDigitKey(d: nat) // 0-9
    | LdOtherKey

  /** The command of a five-bit LD-1100 command number. */
  function Ld1100KeyOf(command: bv32): Ld1100Key {
    if command == 0x14 then LdPlayKey
    else if command == 0x0a then LdPauseKey
    else if command == 0x1e then LdStopKey
    else if command == 0x06 then LdChapterKey
    else if command == 0x0b then LdFrameKey
    else if command == 0x1a then LdSeekKey
    else if command == 0x01 then LdDigitKey(0)
    else if command == 0x11 then LdDigitKey(1)
    else if command == 0x09 then LdDigitKey(2)
    else if command == 0x19 then LdDigitKey(3)
    else if command == 0x05 then LdDigitKey(4)
    else if command == 0x15 then LdDigitKey(5)
    else if command == 0x0d then LdDigitKey(6)
    else if command == 0x1d then LdDigitKey(7)
    else if command == 0x03 then LdDigitKey(8)
    else if command == 0x13 then LdDigitKey(9)
    else LdOtherKey
  }

  /** The low byte of `x` with its bit order reversed. */
  function ReverseByte(x: bv32): bv32 {
    ((x & 1) << 7) | ((x & 2) << 5) | ((x & 4) << 3) | ((x & 8) << 1)
    | ((x & 16) >> 1) | ((x & 32) >> 3) | ((x & 64) >> 5) | ((x & 128) >> 7)
  }

  /** The low four bits of `x` with their order reversed. */
  function ReverseNibble(x: bv32): bv32 {
    ((x & 1) << 3) | ((x & 2) << 1) | ((x & 4) >> 1) | ((x & 8) >> 3)
  }

  /** The NEC code of a digit: the digit's byte with its bits reversed. */
  function NecDigitCode(d: nat): bv32
    requires d < 10
  {
    ReverseByte(d as bv32)
  }

  /** The LD-1100 command of a digit: the digit's four bits reversed,
      followed by a 1 bit. */
  function Ld1100DigitCommand(d: nat): bv32
    requires d < 10
  {
    (ReverseNibble(d as bv32) << 1) | 1
  }

  /** The NEC table holds exactly the bit-reversed digits. */
  lemma NecDigitTable(code: bv32, d: nat)
    ensures NecKeyOf(code) == DigitKey(d) <==> d < 10 && code == NecDigitCode(d)
  {
    if d < 10 {
      DigitCases(d);
    }
  }

  /** The LD-1100 table holds exactly the bit-reversed digits. */
  lemma Ld1100DigitTable(command: bv32, d: nat)
    ensures Ld1100KeyOf(command) == LdDigitKey(d) <==> d < 10 && command == Ld1100DigitCommand(d)
  {
    if d < 10 {
      DigitCases(d);
    }
  }

  lemma DigitCases(d: nat)
    requires d < 10
    ensures d == 0 || d == 1 || d == 2 || d == 3 || d == 4 || d == 5 || d == 6 || d == 7 || d == 8 || d == 9
  {
  }
}

=== FILE: laserdisc_player.dfy ===
/**
 * The command interpreter of the emulated Pioneer laserdisc player.
 *
 * The player is driven by the remote-control line: the wire decoder turns
 * edges into NEC buttons and LD-1100 words, and the interpreter turns those
 * into transport commands (play, pause, stop, multispeed) and searches (seek
 * to a frame or a chapter, wait for a frame).  The player answers on the ACK
 * line: `SetAck` raises it for a number of milliseconds, and reaching a wait
 * frame raises it until the next `SetAck`.  A timer fires at the end of the
 * acknowledgement and ends any seek in progress; a second timer fires once
 * per video frame and advances the current frame.
 *
 * Times are absolute emulation times in whole microseconds.
 */
module LaserdiscPlayer {
  import opened Wrappers
  import opened RemoteWords
  import opened RemoteDecoder
  import opened LaserdiscKeys

  /** What the player reads from the disc image: the first frame of each
      chapter, and the frames marked as stop frames. */
  datatype Disc = Disc(chapters: map<int, int>, stopFrames: set<int>)

  /** The first frame of a chapter, 0 when the disc does not have it. */
  function ChapterFrame(disc: Disc, chapter: int): int {
    if chapter in disc.chapters then disc.chapters[chapter] else 0
  }

  datatype PlayerState = Stopped | Playing | PlayingMultispeed | Paused | Frozen

  /** Which number the remote is entering, if any. */
  datatype SeekState = SeekNone | SeekFrame | SeekChapter | SeekWait

  /** Multispeed speeds, slowest first; "C-" and "C+" move one step. */
  const SpeedStep3: int := -5
  const SpeedStep1: int := -4
  const Speed1In16: int := -3
  const Speed1In8: int := -2
  const Speed1In4: int := -1
  const Speed1In2: int := 0
  const SpeedX1: int := 1
  const SpeedX2: int := 2
  const SpeedX3: int := 3

  predicate SpeedInRange(speed: int) {
    SpeedStep3 <= speed <= SpeedX3
  }

  /** Acknowledgement lengths in milliseconds: an ordinary command, and
      spinning up the disc. */
  const AckMs: nat := 46
  const SpinUpMs: nat := 9600

  /** A NEC button repeated within this many milliseconds is ignored. */
  const NecRepeatMs: nat := 100

  /** The NEC custom byte of the player. */
  const PioneerCustom: bv32 := 0x15

  /** Entered frame numbers keep five digits, chapter numbers two. */
  const FrameDigits: nat := 100000
  const ChapterDigits: nat := 100

  /** The whole player. `ackDeadline` is the time of the pending ACK timer;
      `lastNecCode` is an int so that its initial value 0x100 matches no
      code byte. */
  datatype Player = Player(
    disc: Option<Disc>,
    state: PlayerState,
    seeking: bool,
    ack: bool,
    foundFrame: bool,
    ackDeadline: Option<nat>,
    currentFrame: int,
    waitFrame: int,
    playingSpeed: int,
    frameStep: int,
    seekState: SeekState,
    seekNum: nat,
    getFirstFrame: bool,
    lastNecTime: nat,
    lastNecCode: int,
    remote: Decoder,
    remoteLastEdge: nat)

  /** The members the constructor leaves uninitialised: whatever they hold
      is a parameter of the model. */
  datatype Uninitialised = Uninitialised(
    currentFrame: int, playingSpeed: int, frameStep: int, seekState: SeekState,
    seekNum: nat, getFirstFrame: bool, remoteBits: bv32, remoteBitNr: nat)

  /** The invariant the player keeps between calls. */
  ghost predicate Valid(p: Player) {
    // a disc spins and has a speed whenever the player has left the stopped state
    && ((p.state != Stopped || p.seeking) ==> p.disc.Some? && SpeedInRange(p.playingSpeed))
    // multispeed counts down a positive number of frame ticks
    && (p.state == PlayingMultispeed ==> p.frameStep >= 1)
    // the ACK line is raised exactly while its timer is pending
    && (p.ack <==> p.ackDeadline.Some?)
    // a seek ends with the acknowledgement that announced it
    && (p.seeking ==> p.ack)
    && RemoteInv(p.remote)
    && p.lastNecTime <= p.remoteLastEdge
  }

  /** The decoder's counter bounds, apart from the idle state, in which the
      counter is never read before a rising edge clears it. */
  ghost predicate RemoteInv(d: Decoder) {
    d.state == Idle || Inv(d)
  }

  /** Commands leave the disc, the remote-control line and the memory of
      the last NEC button alone. */
  predicate KeepsLine(p: Player, r: Player) {
    && r.disc == p.disc && r.remote == p.remote && r.remoteLastEdge == p.remoteLastEdge
    && r.lastNecTime == p.lastNecTime && r.lastNecCode == p.lastNecCode
  }

  /** The player as constructed. */
  function Create(u: Uninitialised): (p: Player)
    ensures Valid(p)
    ensures p.state == Stopped && p.disc.None? && !p.seeking
    ensures !ExtAck(p) && p.ackDeadline.None?
    ensures p.remote.state == Idle && !p.remote.lastBit
  {
    Player(
      disc := None, state := Stopped, seeking := false, ack := false, foundFrame := false,
      ackDeadline := None, currentFrame := u.currentFrame, waitFrame := 0,
      playingSpeed := u.playingSpeed, frameStep := u.frameStep, seekState := u.seekState,
      seekNum := u.seekNum, getFirstFrame := u.getFirstFrame, lastNecTime := 0,
      lastNecCode := 0x100, remote := Decoder(Idle, u.remoteBits, u.remoteBitNr, false),
      remoteLastEdge := 0)
  }

  /** Loading a disc image. */
  function InsertDisc(p: Player, disc: Disc): (r: Player)
    ensures r.disc == Some(disc)
    ensures r.(disc := p.disc) == p
    ensures Valid(p) ==> Valid(r)
  {
    p.(disc := Some(disc))
  }

  // ---------------------------------------------------------------------
  // Acknowledgement

  /** The level of the ACK line. */
  predicate ExtAck(p: Player) {
    p.ack || p.foundFrame
  }

  /** When an ACK raised at `now` for `waitMs` milliseconds runs out. */
  function AckDeadline(now: nat, waitMs: nat): nat {
    now + waitMs * 1000
  }

  /** Raises the ACK line for `waitMs` milliseconds, replacing any pending
      timer and forgetting a found wait frame. */
  function SetAck(p: Player, now: nat, waitMs: nat): (r: Player)
    ensures ExtAck(r) && r.ack && !r.foundFrame
    ensures r.ackDeadline == Some(AckDeadline(now, waitMs))
    ensures r.(ack := p.ack, foundFrame := p.foundFrame, ackDeadline := p.ackDeadline) == p
  {
    p.(ack := true, foundFrame := false, ackDeadline := Some(AckDeadline(now, waitMs)))
  }

  /** The ACK timer firing: the line drops and a seek in progress ends. */
  function AckExpired(p: Player): (r: Player)
    ensures !r.ack && !r.seeking && r.ackDeadline.None?
    ensures ExtAck(r) <==> p.foundFrame
    ensures r.(ack := p.ack, seeking := p.seeking, ackDeadline := p.ackDeadline) == p
    ensures Valid(p) ==> Valid(r)
  {
    p.(ack := false, seeking := false, ackDeadline := None)
  }

  // ---------------------------------------------------------------------
  // Transport

  /** Play: from stopped the disc spins up and starts at frame 1 at a
      quarter speed; otherwise play resumes.  A play issued while seeking is
      not acknowledged, but the player still ends up playing. */
  function Play(p: Player, now: nat): (r: Player)
    ensures KeepsLine(p, r)
    ensures p.disc.None? ==> r == p
    ensures p.disc.Some? ==> r.state == Playing
    ensures p.disc.Some? && p.seeking ==> r == p.(state := Playing)
    ensures p.disc.Some? && !p.seeking && p.state == Stopped ==>
              && r.currentFrame == 1 && r.seeking && r.waitFrame == 0
              && r.playingSpeed == Speed1In4
              && r.ackDeadline == Some(AckDeadline(now, SpinUpMs))
              && r.(state := p.state, ack := p.ack, foundFrame := p.foundFrame, ackDeadline := p.ackDeadline,
                    currentFrame := p.currentFrame, seeking := p.seeking, getFirstFrame := p.getFirstFrame,
                    waitFrame := p.waitFrame, playingSpeed := p.playingSpeed) == p
    ensures p.disc.Some? && !p.seeking && p.state != Stopped ==>
              r == SetAck(p, now, AckMs).(state := Playing)
  {
    if p.disc.None? then p
    else
      var q :=
        if p.seeking then p
        else if p.state == Stopped then
          SetAck(p, now, SpinUpMs).(currentFrame := 1, seeking := true, getFirstFrame := false,
                                    waitFrame := 0, playingSpeed := Speed1In4)
        else SetAck(p, now, AckMs);
      q.(state := Playing)
  }

  /** Pause: only a spinning disc can be paused. */
  function Pause(p: Player, now: nat): (r: Player)
    ensures KeepsLine(p, r)
    ensures p.disc.None? || p.state == Stopped ==> r == p
    ensures p.disc.Some? && p.state != Stopped ==>
              r.state == Paused && r.ackDeadline == Some(AckDeadline(now, AckMs))
              && r.currentFrame == p.currentFrame && r.seeking == p.seeking
    ensures p.disc.Some? && p.state != Stopped ==>
              r.(state := p.state, ack := p.ack, foundFrame := p.foundFrame, ackDeadline := p.ackDeadline) == p
  {
    if p.disc.Some? && p.state != Stopped then SetAck(p.(state := Paused), now, AckMs)
    else p
  }

  /** Stop: only a spinning disc can be stopped; it is not acknowledged. */
  function Stop(p: Player): (r: Player)
    ensures KeepsLine(p, r)
    ensures r.(state := p.state) == p
    ensures p.disc.None? ==> r == p
    ensures p.disc.Some? ==> r.state == Stopped
  {
    if p.disc.Some? && p.state != Stopped then p.(state := Stopped) else p
  }

  // ---------------------------------------------------------------------
  // Searching

  function Abs(x: int): nat {
    if x < 0 then -x else x
  }

  /** How long a seek over `dist` frames takes, in milliseconds (measured on
      a Pioneer LD-92000). */
  function SeekTime(dist: nat): nat {
    if dist < 1000 then dist + 300 else 1800 + dist / 12
  }

  /** Frame numbers below 1 seek to frame 1. */
  function SeekTarget(frame: int): (f: int)
    ensures f >= 1
    ensures frame >= 1 ==> f == frame
  {
    if frame <= 0 then 1 else frame
  }

  /** Seek to a frame: the player freezes on the target, forgets any wait
      frame and acknowledges once the seek has had time to complete. */
  function SeekToFrame(p: Player, frame: int, now: nat): (r: Player)
    ensures KeepsLine(p, r)
    ensures p.state == Stopped || p.disc.None? ==> r == p
    ensures p.state != Stopped && p.disc.Some? ==>
              && r.state == Frozen
              && r.currentFrame == SeekTarget(frame)
              && r.seeking && r.waitFrame == 0 && ExtAck(r)
              && r.ackDeadline == Some(AckDeadline(now, SeekTime(Abs(SeekTarget(frame) - p.currentFrame))))
              && r.playingSpeed == p.playingSpeed && r.seekState == p.seekState
    ensures p.state != Stopped && p.disc.Some? ==>
              r.(state := p.state, currentFrame := p.currentFrame, getFirstFrame := p.getFirstFrame,
                 waitFrame := p.waitFrame, seeking := p.seeking, ack := p.ack, foundFrame := p.foundFrame,
                 ackDeadline := p.ackDeadline) == p
  {
    if p.state == Stopped || p.disc.None? then p
    else
      var target := SeekTarget(frame);
      var dist := Abs(target - p.currentFrame);
      SetAck(p.(state := Frozen, currentFrame := target, getFirstFrame := true,
                waitFrame := 0, seeking := true), now, SeekTime(dist))
  }

  /** Seek to the first frame of a chapter; a chapter the disc does not have
      is ignored. */
  function SeekToChapter(p: Player, chapter: int, now: nat): (r: Player)
    ensures KeepsLine(p, r)
    ensures p.state == Stopped || p.disc.None? ==> r == p
    ensures p.disc.Some? && ChapterFrame(p.disc.value, chapter) == 0 ==> r == p
    ensures p.state != Stopped && p.disc.Some? && ChapterFrame(p.disc.value, chapter) != 0 ==>
              && r.state == Frozen && r.seeking && ExtAck(r) && r.waitFrame == 0
              && r.currentFrame == SeekTarget(ChapterFrame(p.disc.value, chapter))
              && (ChapterFrame(p.disc.value, chapter) >= 1 ==>
                    r.currentFrame == p.disc.value.chapters[chapter])
    ensures p.state != Stopped && p.disc.Some? && ChapterFrame(p.disc.value, chapter) != 0 ==>
              r == SeekToFrame(p, ChapterFrame(p.disc.value, chapter), now)
  {
    if p.state == Stopped || p.disc.None? then p
    else
      var frame := ChapterFrame(p.disc.value, chapter);
      if frame == 0 then p else SeekToFrame(p, frame, now)
  }

  // ---------------------------------------------------------------------
  // Frame timing

  /** Frame ticks per displayed step at each multispeed speed. */
  function FrameStepFor(speed: int): (n: int)
    requires SpeedInRange(speed)
    ensures n >= 1
  {
    if speed >= SpeedX1 then 1
    else if speed == Speed1In2 then 2
    else if speed == Speed1In4 then 4
    else if speed == Speed1In8 then 8
    else if speed == Speed1In16 then 16
    else if speed == SpeedStep1 then 30
    else 90
  }

  /** Frames advanced per displayed step at each multispeed speed. */
  function FramesPerStep(speed: int): (n: int)
    ensures 1 <= n <= 3
  {
    if speed == SpeedX3 then 3 else if speed == SpeedX2 then 2 else 1
  }

  /** Reloads the tick counter from the speed; an unknown speed leaves it. */
  function SetFrameStep(p: Player): (r: Player)
    ensures r.(frameStep := p.frameStep) == p
    ensures SpeedInRange(r.playingSpeed) ==> r.frameStep >= 1 && r.frameStep == FrameStepFor(r.playingSpeed)
    ensures !SpeedInRange(p.playingSpeed) ==> r == p
  {
    if SpeedInRange(p.playingSpeed) then p.(frameStep := FrameStepFor(p.playingSpeed)) else p
  }

  /** Whether the player shows a picture: it does when playing or frozen,
      unless a seek is in progress. */
  predicate IsVideoOutputAvailable(p: Player) {
    (p.state == Playing || p.state == PlayingMultispeed || p.state == Frozen) && !p.seeking
  }

  /** The frame after the one just shown: the wait frame is checked, then
      the picture advances. */
  function NextFrame(p: Player): (r: Player)
    requires p.disc.Some?
    ensures r.disc == p.disc && r.seeking == p.seeking && r.playingSpeed == p.playingSpeed
    ensures ExtAck(r) <==> ExtAck(p) || (p.waitFrame != 0 && p.waitFrame == p.currentFrame)
    ensures p.state == Playing ==>
              && r.currentFrame == p.currentFrame + 1
              && (r.state == Frozen <==> r.currentFrame in p.disc.value.stopFrames)
              && (r.state == Playing <==> r.currentFrame !in p.disc.value.stopFrames)
    ensures p.state != Playing && p.state != PlayingMultispeed ==>
              r.state == p.state && r.currentFrame == p.currentFrame
  {
    AdvanceFrame(CheckWaitFrame(p))
  }

  /** Reaching the wait frame raises the ACK line until the next `SetAck`
      and clears the wait frame. */
  function CheckWaitFrame(p: Player): (r: Player)
    ensures ExtAck(r) <==> ExtAck(p) || (p.waitFrame != 0 && p.waitFrame == p.currentFrame)
    ensures r.(waitFrame := p.waitFrame, foundFrame := p.foundFrame) == p
  {
    if p.waitFrame != 0 && p.waitFrame == p.currentFrame then p.(waitFrame := 0, foundFrame := true)
    else p
  }

  /** Multispeed advances once every `frameStep` ticks; normal play
      advances every tick and freezes on a stop frame. */
  function AdvanceFrame(p: Player): (r: Player)
    requires p.disc.Some?
    ensures r.(state := p.state, currentFrame := p.currentFrame, frameStep := p.frameStep) == p
    ensures p.state == Playing ==>
              && r.currentFrame == p.currentFrame + 1
              && (r.state == Frozen <==> r.currentFrame in p.disc.value.stopFrames)
              && (r.state == Playing <==> r.currentFrame !in p.disc.value.stopFrames)
    ensures p.state != Playing && p.state != PlayingMultispeed ==> r == p
  {
    if p.state == PlayingMultispeed && p.frameStep - 1 != 0 then
      p.(frameStep := p.frameStep - 1)
    else
      var q :=
        if p.state == PlayingMultispeed then
          SetFrameStep(p.(frameStep := 0, currentFrame := p.currentFrame + FramesPerStep(p.playingSpeed)))
        else if p.state == Playing then p.(currentFrame := p.currentFrame + 1)
        else p;
      if q.currentFrame in q.disc.value.stopFrames && q.state == Playing then q.(state := Frozen)
      else q
  }

  /** The frame timer: the next frame is only fetched while there is a
      picture. */
  function FrameTick(p: Player): (r: Player)
    requires IsVideoOutputAvailable(p) ==> p.disc.Some?
    ensures !IsVideoOutputAvailable(p) ==> r == p
    ensures r.disc == p.disc && r.seeking == p.seeking && r.playingSpeed == p.playingSpeed
    ensures ExtAck(r) <==> ExtAck(p) || (IsVideoOutputAvailable(p) && p.waitFrame != 0 && p.waitFrame == p.currentFrame)
    ensures IsVideoOutputAvailable(p) && p.state == Playing ==>
              && r.currentFrame == p.currentFrame + 1
              && (r.state == Frozen <==> r.currentFrame in p.disc.value.stopFrames)
              && (r.state == Playing <==> r.currentFrame !in p.disc.value.stopFrames)
    ensures IsVideoOutputAvailable(p) && p.state == PlayingMultispeed ==>
              && r.state == PlayingMultispeed
              && (p.frameStep != 1 ==> r.currentFrame == p.currentFrame && r.frameStep == p.frameStep - 1)
              && (p.frameStep == 1 ==> r.currentFrame == p.currentFrame + FramesPerStep(p.playingSpeed))
    ensures p.state == Frozen ==> r.state == Frozen && r.currentFrame == p.currentFrame
  {
    if IsVideoOutputAvailable(p) then NextFrame(p) else p
  }

  // ---------------------------------------------------------------------
  // LD-1100 commands

  /** One LD-1100 command.  Play, pause and stop abandon any search; "seek"
      starts a frame search, and a second "seek" carries it out (modulo five
      digits for frames, two for chapters); "chapter" after the first "seek"
      turns the search into a chapter search; "frame" there keeps it a frame
      search; digits are appended to the number.  A "seek" while a wait
      frame is being entered does nothing. */
  function Ld1100Press(p: Player, key: Ld1100Key, now: nat): (r: Player)
    ensures KeepsLine(p, r)
    ensures key.LdDigitKey? ==> r == p.(seekNum := p.seekNum * 10 + key.d)
    ensures key.LdOtherKey? ==> r == p
    ensures key.LdPlayKey? || key.LdPauseKey? || key.LdStopKey? ==> r.seekState == SeekNone
    ensures key.LdPlayKey? && p.disc.Some? ==> r.state == Playing
    ensures key.LdPauseKey? && p.disc.Some? && p.state != Stopped ==>
              r.state == Paused && r.currentFrame == p.currentFrame && r.ackDeadline == Some(AckDeadline(now, AckMs))
    ensures key.LdStopKey? ==> r.(state := p.state, seekState := p.seekState) == p
    ensures key.LdStopKey? && p.disc.Some? ==> r.state == Stopped
    ensures key.LdChapterKey? || key.LdFrameKey? ==> r.(seekState := p.seekState) == p
    ensures key.LdChapterKey? ==>
              (r.seekState == SeekChapter <==> p.seekState == SeekFrame)
              && (r.seekState != SeekChapter ==> r.seekState == SeekNone)
    ensures key.LdFrameKey? ==>
              (r.seekState == SeekFrame <==> p.seekState == SeekFrame)
              && (r.seekState != SeekFrame ==> r.seekState == SeekNone)
    ensures key.LdSeekKey? ==> r == Ld1100Seek(p, now)
  {
    if key.LdPlayKey? then Play(p.(seekState := SeekNone), now)
    else if key.LdPauseKey? then Pause(p.(seekState := SeekNone), now)
    else if key.LdStopKey? then Stop(p.(seekState := SeekNone))
    else if key.LdChapterKey? then
      p.(seekState := if p.seekState == SeekFrame then SeekChapter else SeekNone)
    else if key.LdFrameKey? then
      (if p.seekState != SeekFrame then p.(seekState := SeekNone) else p)
    else if key.LdSeekKey? then Ld1100Seek(p, now)
    else if key.LdDigitKey? then p.(seekNum := p.seekNum * 10 + key.d)
    else p
  }

  /** The LD-1100 "seek" command: it starts a frame search, carries out the
      frame or chapter search being entered, and is ignored while a wait
      frame is being entered. */
  function Ld1100Seek(p: Player, now: nat): (r: Player)
    ensures KeepsLine(p, r)
    ensures p.seekState == SeekNone ==>
              r.seekState == SeekFrame && r.seekNum == 0 && r.(seekState := p.seekState, seekNum := p.seekNum) == p
    ensures p.seekState == SeekWait ==> r == p
    ensures p.seekState == SeekFrame || p.seekState == SeekChapter ==> r.seekState == SeekNone
    ensures p.seekState == SeekFrame && p.state != Stopped && p.disc.Some? ==>
              && r.state == Frozen && r.seeking && r.waitFrame == 0
              && r.currentFrame == SeekTarget(p.seekNum % FrameDigits)
    ensures p.seekState == SeekChapter && p.disc.Some? && ChapterFrame(p.disc.value, p.seekNum % ChapterDigits) == 0 ==>
              r == p.(seekState := SeekNone)
    ensures p.seekState == SeekChapter && p.state != Stopped && p.disc.Some?
            && ChapterFrame(p.disc.value, p.seekNum % ChapterDigits) != 0 ==>
              && r.state == Frozen && r.seeking && r.waitFrame == 0
              && r.currentFrame == SeekTarget(ChapterFrame(p.disc.value, p.seekNum % ChapterDigits))
  {
    match p.seekState
    case SeekNone => p.(seekState := SeekFrame, seekNum := 0)
    case SeekFrame => SeekToFrame(p.(seekState := SeekNone), p.seekNum % FrameDigits, now)
    case SeekChapter => SeekToChapter(p.(seekState := SeekNone), p.seekNum % ChapterDigits, now)
    case SeekWait => p
  }

  /** A 30-bit LD-1100 word from the decoder: a malformed word is dropped,
      otherwise its command is carried out. */
  function RemoteButtonLd1100(p: Player, word: bv32, now: nat): (r: Player)
    ensures KeepsLine(p, r)
    ensures !Ld1100Valid(word) ==> r == p
    ensures Ld1100Valid(word) ==> r == Ld1100Press(p, Ld1100KeyOf(Ld1100Command(word)), now)
  {
    if !Ld1100Valid(word) then p
    else Ld1100Press(p, Ld1100KeyOf(Ld1100Command(word)), now)
  }

  // ---------------------------------------------------------------------
  // NEC buttons

  /** The search part of a NEC button, for a player that is not stopped.
      Every button except "wait frame", "M-", an "end" with nothing entered,
      a "chapter" on a disc without chapter 0, and the unknown buttons is
      acknowledged for 46 ms, which replaces the acknowledgement of a seek
      it starts. */
  function NecSeekKey(p: Player, key: NecKey, now: nat): (r: Player)
    requires p.disc.Some?
    ensures KeepsLine(p, r)
    ensures key.DigitKey? ==> r == SetAck(p.(seekNum := p.seekNum * 10 + key.d), now, AckMs)
    ensures NecAcked(p, key) ==> r.ack && !r.foundFrame && r.ackDeadline == Some(AckDeadline(now, AckMs))
    ensures !NecAcked(p, key) ==> r.ack == p.ack && r.foundFrame == p.foundFrame && r.ackDeadline == p.ackDeadline
  {
    var (q, ok) := NecSeekEffect(p, key, now);
    if ok then SetAck(q, now, AckMs) else q
  }

  /** The effect of a NEC button on the search, and whether it is
      acknowledged. */
  function NecSeekEffect(p: Player, key: NecKey, now: nat): (r: (Player, bool))
    requires p.disc.Some?
    ensures KeepsLine(p, r.0)
    ensures r.1 <==> NecAcked(p, key)
    ensures !r.1 ==> r.0.ack == p.ack && r.0.foundFrame == p.foundFrame && r.0.ackDeadline == p.ackDeadline
  {
    if IsEntryKey(key) then NecEntryEffect(p, key, now) else NecMotionEffect(p, key)
  }

  /** Which NEC buttons a player that is not stopped acknowledges: all
      but "wait frame", "M-", the unknown buttons, an "end" with nothing
      being entered, and a "chapter" on a disc without chapter 0. */
  predicate NecAcked(p: Player, key: NecKey)
    requires p.disc.Some?
  {
    match key
    case FrameKey => true
    case DigitKey(_) => true
    case ClearKey => true
    case MultiForwardKey => true
    case SlowerKey => true
    case FasterKey => true
    case ChapterKey => 0 in p.disc.value.chapters && p.disc.value.chapters[0] != 0
    case EndKey => p.seekState != SeekNone
    case _ => false
  }

  /** The buttons that enter a number or act on the number entered. */
  predicate IsEntryKey(key: NecKey) {
    key.WaitFrameKey? || key.FrameKey? || key.ChapterKey? || key.DigitKey? || key.EndKey? || key.ClearKey?
  }

  function NecEntryEffect(p: Player, key: NecKey, now: nat): (r: (Player, bool))
    requires p.disc.Some? && IsEntryKey(key)
    ensures KeepsLine(p, r.0)
    ensures key.DigitKey? ==> r == (p.(seekNum := p.seekNum * 10 + key.d), true)
    ensures key.FrameKey? || key.WaitFrameKey? || key.ChapterKey? ==>
              r.0.(seekState := p.seekState, seekNum := p.seekNum) == p && r.0.seekNum == 0
    ensures key.FrameKey? ==> r.0.seekState == SeekFrame && r.1
    ensures key.WaitFrameKey? ==> r.0.seekState == SeekWait && !r.1
    ensures key.ChapterKey? ==>
              r.0.seekState == SeekChapter && (r.1 <==> 0 in p.disc.value.chapters && p.disc.value.chapters[0] != 0)
    ensures key.ClearKey? ==> r == (NecClear(p), true)
    ensures key.EndKey? ==> r.0.seekState == SeekNone && (r.1 <==> p.seekState != SeekNone)
  {
    if key.WaitFrameKey? then (StartEntry(p, SeekWait), false)
    else if key.FrameKey? then (StartEntry(p, SeekFrame), true)
    else if key.ChapterKey? then (StartEntry(p, SeekChapter), ChapterFrame(p.disc.value, 0) != 0)
    else if key.DigitKey? then (p.(seekNum := p.seekNum * 10 + key.d), true)
    else if key.EndKey? then NecEnd(p, now)
    else (NecClear(p), true)
  }

  /** Starts entering a new number of the given kind. */
  function StartEntry(p: Player, kind: SeekState): (r: Player)
    ensures r.seekState == kind && r.seekNum == 0
    ensures r.(seekState := p.seekState, seekNum := p.seekNum) == p
  {
    p.(seekState := kind, seekNum := 0)
  }

  /** "X+": the first press clears a number being entered, the next one
      (or a press with nothing entered) leaves number entry; the wait frame
      is forgotten either way. */
  function NecClear(p: Player): (r: Player)
    ensures r.seekNum == 0 && r.waitFrame == 0
    ensures r.seekState == SeekNone <==> p.seekState == SeekNone || p.seekNum == 0
    ensures r.seekState != SeekNone ==> r.seekState == p.seekState
    ensures r.(seekState := p.seekState, seekNum := p.seekNum, waitFrame := p.waitFrame) == p
  {
    var c := if p.seekState != SeekNone && p.seekNum != 0 then p.(seekNum := 0)
             else p.(seekState := SeekNone, seekNum := 0);
    c.(waitFrame := 0)
  }

  /** The multispeed buttons; every other button abandons the search
      unacknowledged. */
  function NecMotionEffect(p: Player, key: NecKey): (r: (Player, bool))
    requires !IsEntryKey(key)
    ensures KeepsLine(p, r.0)
    ensures !key.MultiBackKey? && !key.MultiForwardKey? && !key.SlowerKey? && !key.FasterKey? ==>
              r == (p.(seekState := SeekNone), false)
    ensures key.MultiBackKey? ==> r == (p, false)
    ensures key.MultiForwardKey? ==>
              && r.1 && r.0.state == PlayingMultispeed
              && (SpeedInRange(p.playingSpeed) ==> r.0.frameStep == FrameStepFor(p.playingSpeed))
              && r.0.(state := p.state, frameStep := p.frameStep) == p
    ensures key.SlowerKey? || key.FasterKey? ==>
              r.1 && r.0.(playingSpeed := p.playingSpeed, frameStep := p.frameStep) == p
  {
    if key.MultiBackKey? then (p, false)
    else if key.MultiForwardKey? then (SetFrameStep(p.(state := PlayingMultispeed)), true)
    else if key.SlowerKey? then (NecSpeed(p, -1), true)
    else if key.FasterKey? then (NecSpeed(p, 1), true)
    else (p.(seekState := SeekNone), false)
  }

  /** "End": carries out the search being entered (modulo five digits for
      frames, two for chapters) or sets the wait frame; with nothing being
      entered it is not acknowledged. */
  function NecEnd(p: Player, now: nat): (r: (Player, bool))
    ensures KeepsLine(p, r.0)
    ensures r.0.seekState == SeekNone
    ensures r.1 <==> p.seekState != SeekNone
    ensures p.seekState == SeekNone ==> r.0 == p
    ensures p.seekState == SeekWait ==>
              r.0.waitFrame == p.seekNum % FrameDigits
              && r.0.(seekState := p.seekState, waitFrame := p.waitFrame) == p
    ensures p.seekState == SeekFrame && p.state != Stopped && p.disc.Some? ==>
              && r.0.state == Frozen && r.0.seeking && r.0.waitFrame == 0
              && r.0.currentFrame == SeekTarget(p.seekNum % FrameDigits)
    ensures p.seekState == SeekChapter && p.disc.Some? && ChapterFrame(p.disc.value, p.seekNum % ChapterDigits) == 0 ==>
              r.0 == p.(seekState := SeekNone)
    ensures p.seekState == SeekChapter && p.state != Stopped && p.disc.Some?
            && ChapterFrame(p.disc.value, p.seekNum % ChapterDigits) != 0 ==>
              && r.0.state == Frozen && r.0.seeking && r.0.waitFrame == 0
              && r.0.currentFrame == SeekTarget(ChapterFrame(p.disc.value, p.seekNum % ChapterDigits))
  {
    match p.seekState
    case SeekFrame => (SeekToFrame(p.(seekState := SeekNone), p.seekNum % FrameDigits, now), true)
    case SeekChapter => (SeekToChapter(p.(seekState := SeekNone), p.seekNum % ChapterDigits, now), true)
    case SeekWait => (p.(seekState := SeekNone, waitFrame := p.seekNum % FrameDigits), true)
    case SeekNone => (p, false)
  }

  /** "C-" (`delta` -1) and "C+" (`delta` 1): one speed step, as long as
      the result is a speed, restarting the tick count. */
  function NecSpeed(p: Player, delta: int): (r: Player)
    requires delta == -1 || delta == 1
    ensures KeepsLine(p, r)
    ensures SpeedInRange(p.playingSpeed) ==> SpeedInRange(r.playingSpeed)
    ensures SpeedInRange(p.playingSpeed + delta) ==> r.playingSpeed == p.playingSpeed + delta && r.frameStep == 1
    ensures SpeedInRange(p.playingSpeed) && !SpeedInRange(p.playingSpeed + delta) ==> r == p
    ensures r.(playingSpeed := p.playingSpeed, frameStep := p.frameStep) == p
  {
    if (delta < 0 && p.playingSpeed >= SpeedStep1) || (delta > 0 && p.playingSpeed <= SpeedX2) then
      p.(playingSpeed := p.playingSpeed + delta, frameStep := 1)
    else p
  }

  /** The transport part of a NEC button, whatever the player's state. */
  function NecTransport(p: Player, key: NecKey, now: nat): (r: Player)
    ensures KeepsLine(p, r)
    ensures r == p || r.state == Paused || r.state == Playing || r.state == Stopped
    ensures p.disc.None? || (!key.PauseKey? && !key.PlayKey? && !key.StopKey?) ==> r == p
    ensures p.disc.Some? && key.PlayKey? ==> r.state == Playing
    ensures key.PauseKey? && p.state != Stopped && p.disc.Some? ==>
              r.state == Paused && r.currentFrame == p.currentFrame && r.ackDeadline == Some(AckDeadline(now, AckMs))
    ensures key.StopKey? && p.disc.Some? ==> r == p.(state := Stopped)
  {
    match key
    case PauseKey => Pause(p, now)
    case PlayKey => Play(p, now)
    case StopKey => Stop(p)
    case _ => p
  }

  /** Milliseconds since the last accepted NEC button, as the 32-bit
      unsigned count the player keeps. */
  function NecElapsedMs(p: Player, now: nat): nat
    requires p.lastNecTime <= now
  {
    ((now - p.lastNecTime) / 1000) % 0x1_0000_0000
  }

  /** A NEC button.  Buttons for another device are ignored; the same button
      again within 100 ms only refreshes the time (it is the remote's key
      repeat); otherwise the button is remembered and interpreted. */
  function RemoteButtonNec(p: Player, custom: bv32, code: bv32, now: nat): (r: Player)
    requires p.lastNecTime <= now
    requires p.state != Stopped ==> p.disc.Some?
    ensures r.disc == p.disc && r.remote == p.remote && r.remoteLastEdge == p.remoteLastEdge
    ensures custom != PioneerCustom ==> r == p
    ensures custom == PioneerCustom ==> r.lastNecTime == now
    ensures custom == PioneerCustom && code as int == p.lastNecCode && NecElapsedMs(p, now) < NecRepeatMs ==>
              r == p.(lastNecTime := now)
    ensures custom == PioneerCustom && !(code as int == p.lastNecCode && NecElapsedMs(p, now) < NecRepeatMs) ==>
              var q := p.(lastNecTime := now, lastNecCode := code as int);
              r == NecTransport(if p.state != Stopped then NecSeekKey(q, NecKeyOf(code), now) else q, NecKeyOf(code), now)
  {
    if custom != PioneerCustom then p
    else if code as int == p.lastNecCode && NecElapsedMs(p, now) < NecRepeatMs then p.(lastNecTime := now)
    else
      var q := p.(lastNecTime := now, lastNecCode := code as int);
      var key := NecKeyOf(code);
      var s := if q.state != Stopped then NecSeekKey(q, key, now) else q;
      NecTransport(s, key, now)
  }

  // ---------------------------------------------------------------------
  // The remote-control line

  /** Microseconds since the last edge, as the 32-bit unsigned count the
      player keeps. */
  function EdgeUsec(p: Player, now: nat): nat
    requires p.remoteLastEdge <= now
  {
    (now - p.remoteLastEdge) % 0x1_0000_0000
  }

  /** A write to the remote-control line.  An unchanged level is ignored;
      otherwise the edge is timed, fed to the decoder, and a completed frame
      is interpreted.  NEC repeat frames have no effect. */
  function ExtControl(p: Player, bit: bool, now: nat): (r: Player)
    requires p.remoteLastEdge <= now && p.lastNecTime <= now
    requires p.state != Stopped ==> p.disc.Some?
    ensures bit == p.remote.lastBit ==> r == p
    ensures bit != p.remote.lastBit ==> r.remote.lastBit == bit && r.remoteLastEdge == now
    ensures bit != p.remote.lastBit ==> r.remote == Step(p.remote, bit, EdgeUsec(p, now)).0
    ensures bit != p.remote.lastBit && Step(p.remote, bit, EdgeUsec(p, now)).1 in {None, Some(NecRepeat)} ==>
              r == p.(remote := Step(p.remote, bit, EdgeUsec(p, now)).0, remoteLastEdge := now)
    ensures bit != p.remote.lastBit && Step(p.remote, bit, EdgeUsec(p, now)).1.Some?
            && Step(p.remote, bit, EdgeUsec(p, now)).1.value.NecButton? ==>
              var ev := Step(p.remote, bit, EdgeUsec(p, now)).1.value;
              r == RemoteButtonNec(p.(remote := Step(p.remote, bit, EdgeUsec(p, now)).0, remoteLastEdge := now),
                                   ev.custom, ev.code, now)
    ensures bit != p.remote.lastBit && Step(p.remote, bit, EdgeUsec(p, now)).1.Some?
            && Step(p.remote, bit, EdgeUsec(p, now)).1.value.Ld1100Word? ==>
              r == RemoteButtonLd1100(p.(remote := Step(p.remote, bit, EdgeUsec(p, now)).0, remoteLastEdge := now),
                                      Step(p.remote, bit, EdgeUsec(p, now)).1.value.word, now)
  {
    if bit == p.remote.lastBit then p
    else
      var (d, ev) := Step(p.remote, bit, EdgeUsec(p, now));
      Dispatch(p.(remote := d, remoteLastEdge := now), ev, now)
  }

  /** What a completed remote-control frame does. */
  function Dispatch(p: Player, ev: Option<RemoteEvent>, now: nat): (r: Player)
    requires p.lastNecTime <= now
    requires p.state != Stopped ==> p.disc.Some?
    ensures r.disc == p.disc && r.remote == p.remote && r.remoteLastEdge == p.remoteLastEdge
    ensures ev.None? || ev == Some(NecRepeat) ==> r == p
    ensures ev.Some? && ev.value.NecButton? ==>
              r == RemoteButtonNec(p, ev.value.custom, ev.value.code, now)
    ensures ev.Some? && ev.value.Ld1100Word? ==> r == RemoteButtonLd1100(p, ev.value.word, now)
  {
    match ev
    case None => p
    case Some(NecButton(custom, code)) => RemoteButtonNec(p, custom, code, now)
    case Some(Ld1100Word(word)) => RemoteButtonLd1100(p, word, now)
    case Some(NecRepeat) => p
  }
}

=== FILE: player_invariant.dfy ===
/**
 * Every operation of the laserdisc player keeps its invariant: a player
 * that has left the stopped state has a disc and a valid speed, multispeed
 * always has ticks left to count, the ACK line is up exactly while its
 * timer is pending, a seek is always announced on the ACK line, and the
 * remote-control decoder keeps its counter bounds.
 */
module PlayerInvariant {
  import opened Wrappers
  import opened RemoteDecoder
  import opened LaserdiscKeys
  import opened LaserdiscPlayer

  lemma SetAckKeepsValid(p: Player, now: nat, waitMs: nat)
    requires Valid(p)
    ensures Valid(SetAck(p, now, waitMs))
  {
  }

  lemma PlayKeepsValid(p: Player, now: nat)
    requires Valid(p)
    ensures Valid(Play(p, now))
  {
  }

  lemma PauseKeepsValid(p: Player, now: nat)
    requires Valid(p)
    ensures Valid(Pause(p, now))
  {
  }

  lemma StopKeepsValid(p: Player)
    requires Valid(p)
    ensures Valid(Stop(p))
  {
  }

  lemma SeekToFrameKeepsValid(p: Player, frame: int, now: nat)
    requires Valid(p)
    ensures Valid(SeekToFrame(p, frame, now))
  {
  }

  lemma SeekToChapterKeepsValid(p: Player, chapter: int, now: nat)
    requires Valid(p)
    ensures Valid(SeekToChapter(p, chapter, now))
  {
    if p.state != Stopped && p.disc.Some? && ChapterFrame(p.disc.value, chapter) != 0 {
      SeekToFrameKeepsValid(p, ChapterFrame(p.disc.value, chapter), now);
    }
  }

  lemma Ld1100PressKeepsValid(p: Player, key: Ld1100Key, now: nat)
    requires Valid(p)
    ensures Valid(Ld1100Press(p, key, now))
  {
    match key
    case LdPlayKey => PlayKeepsValid(p.(seekState := SeekNone), now);
    case LdPauseKey => PauseKeepsValid(p.(seekState := SeekNone), now);
    case LdStopKey => StopKeepsValid(p.(seekState := SeekNone));
    case LdSeekKey =>
      if p.seekState == SeekFrame {
        SeekToFrameKeepsValid(p.(seekState := SeekNone), p.seekNum % FrameDigits, now);
      } else if p.seekState == SeekChapter {
        SeekToChapterKeepsValid(p.(seekState := SeekNone), p.seekNum % ChapterDigits, now);
      }
    case _ =>
  }

  lemma RemoteButtonLd1100KeepsValid(p: Player, word: bv32, now: nat)
    requires Valid(p)
    ensures Valid(RemoteButtonLd1100(p, word, now))
  {
    Ld1100PressKeepsValid(p, Ld1100KeyOf(RemoteWords.Ld1100Command(word)), now);
  }

  lemma NecEndKeepsValid(p: Player, now: nat)
    requires Valid(p)
    ensures Valid(NecEnd(p, now).0)
  {
    if p.seekState == SeekFrame {
      SeekToFrameKeepsValid(p.(seekState := SeekNone), p.seekNum % FrameDigits, now);
    } else if p.seekState == SeekChapter {
      SeekToChapterKeepsValid(p.(seekState := SeekNone), p.seekNum % ChapterDigits, now);
    }
  }

  lemma NecSeekKeyKeepsValid(p: Player, key: NecKey, now: nat)
    requires Valid(p) && p.state != Stopped
    ensures Valid(NecSeekKey(p, key, now))
  {
    var q := NecSeekEffect(p, key, now).0;
    if key.EndKey? {
      NecEndKeepsValid(p, now);
    }
    assert Valid(q);
    SetAckKeepsValid(q, now, AckMs);
  }

  lemma NecTransportKeepsValid(p: Player, key: NecKey, now: nat)
    requires Valid(p)
    ensures Valid(NecTransport(p, key, now))
  {
    match key
    case PauseKey => PauseKeepsValid(p, now);
    case PlayKey => PlayKeepsValid(p, now);
    case StopKey => StopKeepsValid(p);
    case _ =>
  }

  /** A NEC button keeps the invariant when it arrives with the edge that
      completed its frame. */
  lemma RemoteButtonNecKeepsValid(p: Player, custom: bv32, code: bv32, now: nat)
    requires Valid(p) && p.remoteLastEdge == now
    ensures Valid(RemoteButtonNec(p, custom, code, now))
  {
    if custom == PioneerCustom && !(code as int == p.lastNecCode && NecElapsedMs(p, now) < NecRepeatMs) {
      var q := p.(lastNecTime := now, lastNecCode := code as int);
      var key := NecKeyOf(code);
      if q.state != Stopped {
        NecSeekKeyKeepsValid(q, key, now);
        NecTransportKeepsValid(NecSeekKey(q, key, now), key, now);
      } else {
        NecTransportKeepsValid(q, key, now);
      }
    }
  }

  /** The decoder keeps its bounds across any edge, starting from idle with
      a stale counter included. */
  lemma StepKeepsRemoteInv(d: Decoder, bit: bool, usec: nat)
    requires RemoteInv(d)
    ensures RemoteInv(Step(d, bit, usec).0)
  {
    if d.state != Idle {
      StepKeepsInv(d, bit, usec);
    }
  }

  lemma ExtControlKeepsValid(p: Player, bit: bool, now: nat)
    requires Valid(p) && p.remoteLastEdge <= now
    ensures Valid(ExtControl(p, bit, now))
  {
    if bit != p.remote.lastBit {
      var (d, ev) := Step(p.remote, bit, EdgeUsec(p, now));
      StepKeepsRemoteInv(p.remote, bit, EdgeUsec(p, now));
      var q := p.(remote := d, remoteLastEdge := now);
      assert Valid(q);
      match ev
      case None =>
      case Some(NecButton(custom, code)) =>
        RemoteButtonNecKeepsValid(q, custom, code, now);
      case Some(Ld1100Word(word)) =>
        RemoteButtonLd1100KeepsValid(q, word, now);
      case Some(NecRepeat) =>
    }
  }

  lemma FrameTickKeepsValid(p: Player)
    requires Valid(p)
    ensures Valid(FrameTick(p))
  {
  }
}

=== FILE: player_properties.dfy ===
/**
 * What the laserdisc player promises its host: how long searches take and
 * what they show afterwards, how fast multispeed advances, how numbers are
 * entered on both remotes, and which NEC buttons are filtered out.
 */
module PlayerProperties {
  import opened Wrappers
  import opened RemoteWords
  import opened LaserdiscKeys
  import opened LaserdiscPlayer

  // ---------------------------------------------------------------------
  // Seek timing

  /** A seek takes at least 300 ms, and a longer seek never takes less
      time than a shorter one (the jump at 1000 frames included). */
  lemma SeekTimeMonotone(a: nat, b: nat)
    requires a <= b
    ensures 300 <= SeekTime(a) <= SeekTime(b)
  {
  }

  /** A seek hides the picture until its acknowledgement has run out; then
      the player shows the target frame, frozen. */
  lemma SeekShowsTargetAfterAck(p: Player, frame: int, now: nat)
    requires Valid(p) && p.state != Stopped
    ensures var q := SeekToFrame(p, frame, now);
      && !IsVideoOutputAvailable(q)
      && ExtAck(q)
      && q.ackDeadline.Some? && q.ackDeadline.value >= now + 300 * 1000
      && IsVideoOutputAvailable(AckExpired(q))
      && AckExpired(q).currentFrame == SeekTarget(frame)
      && AckExpired(q).state == Frozen
  {
    SeekTimeMonotone(0, Abs(SeekTarget(frame) - p.currentFrame));
  }

  /** Play from the stopped state spins the disc up for 9.6 s, during which
      there is no picture; afterwards frame 1 plays. */
  lemma PlayFromStopSpinsUp(p: Player, now: nat)
    requires Valid(p) && p.state == Stopped && !p.seeking && p.disc.Some?
    ensures var q := Play(p, now);
      && q.state == Playing && !IsVideoOutputAvailable(q)
      && q.ackDeadline == Some(AckDeadline(now, SpinUpMs))
      && IsVideoOutputAvailable(AckExpired(q))
      && AckExpired(q).currentFrame == 1
  {
  }

  /** The ACK line is up exactly while an acknowledgement is pending or a
      wait frame has been found, and always while a seek is in progress. */
  lemma AckLineFollowsTimer(p: Player)
    requires Valid(p)
    ensures ExtAck(p) <==> p.ackDeadline.Some? || p.foundFrame
    ensures p.seeking ==> ExtAck(p)
  {
  }

  /** A picture is shown only from a spinning disc that is neither paused
      nor seeking. */
  lemma VideoOutputNeedsSpinningDisc(p: Player)
    requires Valid(p)
    ensures IsVideoOutputAvailable(p) ==> p.disc.Some? && p.state != Stopped && p.state != Paused
    ensures p.seeking || p.state == Stopped || p.state == Paused ==> !IsVideoOutputAvailable(p)
  {
  }

  // ---------------------------------------------------------------------
  // Frame timing

  /** `k` ticks of the frame timer. */
  function Ticks(p: Player, k: nat): (r: Player)
    requires p.disc.Some?
    ensures r.disc == p.disc && r.seeking == p.seeking
    ensures p.state != Playing && p.state != PlayingMultispeed ==>
              r.state == p.state && r.currentFrame == p.currentFrame
    decreases k
  {
    if k == 0 then p else Ticks(FrameTick(p), k - 1)
  }

  /** One multispeed tick: counts down, and on the last tick advances the
      picture and reloads the count from the speed. */
  lemma MultispeedTick(p: Player)
    requires p.disc.Some? && !p.seeking && p.state == PlayingMultispeed
    requires SpeedInRange(p.playingSpeed) && p.frameStep >= 1
    ensures var r := FrameTick(p);
      && r.state == PlayingMultispeed && r.playingSpeed == p.playingSpeed
      && (p.frameStep > 1 ==> r.currentFrame == p.currentFrame && r.frameStep == p.frameStep - 1)
      && (p.frameStep == 1 ==>
            r.currentFrame == p.currentFrame + FramesPerStep(p.playingSpeed)
            && r.frameStep == FrameStepFor(p.playingSpeed))
  {
  }

  /** Multispeed holds each picture for `frameStep` ticks: the first
      `frameStep - 1` ticks only count down, the next one advances the
      picture by the speed's frames per step and reloads the count. */
  lemma {:induction false} MultispeedCadence(p: Player, k: nat)
    requires p.disc.Some? && !p.seeking && p.state == PlayingMultispeed
    requires SpeedInRange(p.playingSpeed) && 1 <= k <= p.frameStep
    ensures var r := Ticks(p, k);
      && r.state == PlayingMultispeed && r.playingSpeed == p.playingSpeed
      && (k < p.frameStep ==> r.currentFrame == p.currentFrame && r.frameStep == p.frameStep - k)
      && (k == p.frameStep ==>
            r.currentFrame == p.currentFrame + FramesPerStep(p.playingSpeed)
            && r.frameStep == FrameStepFor(p.playingSpeed))
    decreases k
  {
    MultispeedTick(p);
    var q := FrameTick(p);
    if k > 1 {
      MultispeedCadence(q, k - 1);
    }
  }

  /** The speeds are ordered: every "C+" step shows strictly more frames
      per tick (3, 2, 1, 1/2, 1/4, 1/8, 1/16, 1/30, 1/90 from the top). */
  lemma SpeedsOrdered(s: int, t: int)
    requires SpeedInRange(s) && SpeedInRange(t) && s < t
    ensures FramesPerStep(s) * FrameStepFor(t) < FramesPerStep(t) * FrameStepFor(s)
  {
  }

  /** No stop frame after `from`, up to and excluding `to`. */
  ghost predicate NoStopFrameBetween(disc: Disc, from: int, to: int) {
    forall f :: from < f < to ==> f !in disc.stopFrames
  }

  /** Normal play shows the next frame on every tick until it reaches a stop
      frame, where it freezes. */
  lemma {:induction false} PlayUntilStopFrame(p: Player, k: nat)
    requires p.disc.Some? && !p.seeking && p.state == Playing
    requires NoStopFrameBetween(p.disc.value, p.currentFrame, p.currentFrame + k)
    ensures Ticks(p, k).currentFrame == p.currentFrame + k
    ensures k > 0 ==> (Ticks(p, k).state == Frozen <==> p.currentFrame + k in p.disc.value.stopFrames)
    ensures Ticks(p, k).state == Playing || Ticks(p, k).state == Frozen
    decreases k
  {
    if k > 0 {
      var q := FrameTick(p);
      assert q.currentFrame == p.currentFrame + 1;
      if k > 1 {
        assert q.state == Playing;
        PlayUntilStopFrame(q, k - 1);
      }
    }
  }

  /** A frozen picture stays frozen. */
  lemma {:induction false} FrozenStays(p: Player, k: nat)
    requires p.disc.Some? && p.state == Frozen
    ensures Ticks(p, k).state == Frozen && Ticks(p, k).currentFrame == p.currentFrame
    decreases k
  {
    if k > 0 {
      FrozenStays(FrameTick(p), k - 1);
    }
  }

  // ---------------------------------------------------------------------
  // Entering numbers

  /** The number a sequence of decimal digits spells, most significant
      first. */
  function DecimalValue(ds: seq<nat>): nat {
    if |ds| == 0 then 0 else DecimalValue(ds[..|ds| - 1]) * 10 + ds[|ds| - 1]
  }

  function Pow10(n: nat): (r: nat)
    ensures r >= 1
  {
    if n == 0 then 1 else 10 * Pow10(n - 1)
  }

  /** Decimal digits append: the value of `ds + [d]` is ten times the value
      of `ds`, plus `d`. */
  lemma DecimalAppend(ds: seq<nat>, d: nat)
    ensures DecimalValue(ds + [d]) == DecimalValue(ds) * 10 + d
  {
    assert (ds + [d])[..|ds|] == ds;
  }

  /** Several LD-1100 commands, in order. */
  function Ld1100Presses(p: Player, keys: seq<Ld1100Key>, now: nat): Player
    decreases |keys|
  {
    if |keys| == 0 then p else Ld1100Press(Ld1100Presses(p, keys[..|keys| - 1], now), keys[|keys| - 1], now)
  }

  /** The LD-1100 digit commands for a sequence of digits. */
  function LdDigits(ds: seq<nat>): (keys: seq<Ld1100Key>)
    ensures |keys| == |ds|
    ensures forall i :: 0 <= i < |ds| ==> keys[i] == LdDigitKey(ds[i])
  {
    seq(|ds|, i requires 0 <= i < |ds| => LdDigitKey(ds[i]))
  }

  /** LD-1100 digits accumulate into the number being entered in decimal,
      most significant first, and touch nothing else. */
  lemma {:induction false} Ld1100DigitsAccumulate(p: Player, ds: seq<nat>, now: nat)
    ensures Ld1100Presses(p, LdDigits(ds), now)
            == p.(seekNum := p.seekNum * Pow10(|ds|) + DecimalValue(ds))
    decreases |ds|
  {
    if |ds| > 0 {
      var init := ds[..|ds| - 1];
      var d := ds[|ds| - 1];
      assert LdDigits(ds)[..|ds| - 1] == LdDigits(init);
      Ld1100DigitsAccumulate(p, init, now);
      var mid := p.(seekNum := p.seekNum * Pow10(|init|) + DecimalValue(init));
      assert Ld1100Presses(p, LdDigits(ds), now) == Ld1100Press(mid, LdDigitKey(d), now);
      assert ds == init + [d];
      DecimalAppend(init, d);
      ShiftDecimal(p.seekNum, Pow10(|init|), DecimalValue(init), d);
    }
  }

  /** Appending a digit to `n` followed by the digits of `v`. */
  lemma ShiftDecimal(n: nat, pow: nat, v: nat, d: nat)
    ensures (n * pow + v) * 10 + d == n * (10 * pow) + (v * 10 + d)
  {
  }

  lemma Ld1100PressesOne(p: Player, key: Ld1100Key, now: nat)
    ensures Ld1100Presses(p, [key], now) == Ld1100Press(p, key, now)
  {
    assert [key][..0] == [];
  }

  /** "seek d1 ... dn seek" on the LD-1100 remote seeks to the frame the
      digits spell, keeping its last five digits. */
  lemma Ld1100FrameSearch(p: Player, ds: seq<nat>, now: nat)
    requires p.seekState == SeekNone
    ensures var q := Ld1100Presses(p, [LdSeekKey] + LdDigits(ds) + [LdSeekKey], now);
      q == SeekToFrame(p.(seekNum := DecimalValue(ds)), DecimalValue(ds) % FrameDigits, now)
  {
    var q1 := p.(seekState := SeekFrame, seekNum := 0);
    var q2 := q1.(seekNum := DecimalValue(ds));
    Ld1100PressesOne(p, LdSeekKey, now);
    Ld1100PressesAppend(p, [LdSeekKey], LdDigits(ds), now);
    Ld1100DigitsAccumulate(q1, ds, now);
    assert Ld1100Presses(p, [LdSeekKey] + LdDigits(ds), now) == q2;
    Ld1100PressesAppend(p, [LdSeekKey] + LdDigits(ds), [LdSeekKey], now);
    Ld1100PressesOne(q2, LdSeekKey, now);
    assert q2.(seekState := SeekNone) == p.(seekNum := DecimalValue(ds));
  }

  /** "seek frame d1 ... dn seek", the form BASIC programs send, seeks to
      the same frame as the form without "frame". */
  lemma Ld1100FrameSearchWithFrame(p: Player, ds: seq<nat>, now: nat)
    requires p.seekState == SeekNone
    ensures var q := Ld1100Presses(p, [LdSeekKey, LdFrameKey] + LdDigits(ds) + [LdSeekKey], now);
      q == SeekToFrame(p.(seekNum := DecimalValue(ds)), DecimalValue(ds) % FrameDigits, now)
  {
    var q1 := p.(seekState := SeekFrame, seekNum := 0);
    var q2 := q1.(seekNum := DecimalValue(ds));
    Ld1100PressesOne(p, LdSeekKey, now);
    Ld1100PressesAppend(p, [LdSeekKey], [LdFrameKey], now);
    Ld1100PressesOne(q1, LdFrameKey, now);
    assert [LdSeekKey] + [LdFrameKey] == [LdSeekKey, LdFrameKey];
    assert Ld1100Presses(p, [LdSeekKey, LdFrameKey], now) == q1;
    Ld1100PressesAppend(p, [LdSeekKey, LdFrameKey], LdDigits(ds), now);
    Ld1100DigitsAccumulate(q1, ds, now);
    assert Ld1100Presses(p, [LdSeekKey, LdFrameKey] + LdDigits(ds), now) == q2;
    Ld1100PressesAppend(p, [LdSeekKey, LdFrameKey] + LdDigits(ds), [LdSeekKey], now);
    Ld1100PressesOne(q2, LdSeekKey, now);
    assert q2.(seekState := SeekNone) == p.(seekNum := DecimalValue(ds));
  }

  /** "seek chapter d1 ... dn seek" on the LD-1100 remote seeks to the
      chapter the digits spell, keeping its last two digits. */
  lemma Ld1100ChapterSearch(p: Player, ds: seq<nat>, now: nat)
    requires p.seekState == SeekNone
    ensures var q := Ld1100Presses(p, [LdSeekKey, LdChapterKey] + LdDigits(ds) + [LdSeekKey], now);
      q == SeekToChapter(p.(seekNum := DecimalValue(ds)), DecimalValue(ds) % ChapterDigits, now)
  {
    var q1 := p.(seekState := SeekFrame, seekNum := 0);
    var q2 := q1.(seekState := SeekChapter);
    var q3 := q2.(seekNum := DecimalValue(ds));
    Ld1100PressesOne(p, LdSeekKey, now);
    Ld1100PressesAppend(p, [LdSeekKey], [LdChapterKey], now);
    Ld1100PressesOne(q1, LdChapterKey, now);
    assert [LdSeekKey] + [LdChapterKey] == [LdSeekKey, LdChapterKey];
    assert Ld1100Presses(p, [LdSeekKey, LdChapterKey], now) == q2;
    Ld1100PressesAppend(p, [LdSeekKey, LdChapterKey], LdDigits(ds), now);
    Ld1100DigitsAccumulate(q2, ds, now);
    assert Ld1100Presses(p, [LdSeekKey, LdChapterKey] + LdDigits(ds), now) == q3;
    Ld1100PressesAppend(p, [LdSeekKey, LdChapterKey] + LdDigits(ds), [LdSeekKey], now);
    Ld1100PressesOne(q3, LdSeekKey, now);
    assert q3.(seekState := SeekNone) == p.(seekNum := DecimalValue(ds));
  }

  lemma {:induction false} Ld1100PressesAppend(p: Player, a: seq<Ld1100Key>, b: seq<Ld1100Key>, now: nat)
    ensures Ld1100Presses(p, a + b, now) == Ld1100Presses(Ld1100Presses(p, a, now), b, now)
    decreases |b|
  {
    if |b| > 0 {
      assert (a + b)[..|a + b| - 1] == a + b[..|b| - 1];
      assert (a + b)[|a + b| - 1] == b[|b| - 1];
      Ld1100PressesAppend(p, a, b[..|b| - 1], now);
    } else {
      assert a + b == a;
    }
  }

  /** A well-formed LD-1100 word carries out exactly the command in its
      ten-bit group. */
  lemma Ld1100WordCarriesCommand(p: Player, command: bv32, now: nat)
    requires command <= 0x1f
    ensures RemoteButtonLd1100(p, Ld1100WordOf(Ld1100GroupOf(command)), now)
            == Ld1100Press(p, Ld1100KeyOf(command), now)
  {
    Ld1100WordFields(command);
  }

  /** Only the command field of an LD-1100 word matters: two well-formed
      words with the same command have the same effect. */
  lemma Ld1100OnlyCommandMatters(p: Player, w1: bv32, w2: bv32, now: nat)
    requires Ld1100Valid(w1) && Ld1100Valid(w2) && Ld1100Command(w1) == Ld1100Command(w2)
    ensures RemoteButtonLd1100(p, w1, now) == RemoteButtonLd1100(p, w2, now)
  {
  }

  // ---------------------------------------------------------------------
  // NEC buttons

  /** The same NEC button again within 100 ms is the remote's key repeat:
      only the time of the last button moves. */
  lemma NecRepeatIgnored(p: Player, code: bv32, now: nat)
    requires p.lastNecTime <= now && (p.state != Stopped ==> p.disc.Some?)
    requires code as int == p.lastNecCode && now - p.lastNecTime < NecRepeatMs * 1000
    ensures RemoteButtonNec(p, PioneerCustom, code, now) == p.(lastNecTime := now)
  {
  }

  /** A button that is not a repeat is remembered. */
  lemma NecButtonRemembered(p: Player, code: bv32, now: nat)
    requires p.lastNecTime <= now && (p.state != Stopped ==> p.disc.Some?)
    requires code as int != p.lastNecCode || NecElapsedMs(p, now) >= NecRepeatMs
    ensures var r := RemoteButtonNec(p, PioneerCustom, code, now);
      r.lastNecCode == code as int && r.lastNecTime == now
  {
    var q := p.(lastNecTime := now, lastNecCode := code as int);
    var key := NecKeyOf(code);
    var s := if p.state != Stopped then NecSeekKey(q, key, now) else q;
    assert KeepsLine(q, s);
    assert KeepsLine(s, NecTransport(s, key, now));
  }

  /** A stopped player reacts to nothing but "play". */
  lemma NecStoppedOnlyPlays(p: Player, code: bv32, now: nat)
    requires p.lastNecTime <= now && p.state == Stopped
    requires code as int != p.lastNecCode || NecElapsedMs(p, now) >= NecRepeatMs
    requires !NecKeyOf(code).PlayKey?
    ensures RemoteButtonNec(p, PioneerCustom, code, now) == p.(lastNecCode := code as int, lastNecTime := now)
  {
    var q := p.(lastNecTime := now, lastNecCode := code as int);
    assert NecTransport(q, NecKeyOf(code), now) == q;
  }

  /** Pressing a digit twice quickly enters it once: to enter "11" the
      second press must come at least 100 ms after the first. */
  lemma NecDoubleDigitNeedsPause(p: Player, d: nat, t1: nat, t2: nat)
    requires Valid(p) && p.state != Stopped && d < 10
    requires p.lastNecTime <= t1 <= t2 && t2 - t1 < NecRepeatMs * 1000
    requires NecDigitCode(d) as int != p.lastNecCode
    ensures var q := RemoteButtonNec(p, PioneerCustom, NecDigitCode(d), t1);
      && q.seekNum == p.seekNum * 10 + d
      && RemoteButtonNec(q, PioneerCustom, NecDigitCode(d), t2).seekNum == p.seekNum * 10 + d
  {
    NecDigitTable(NecDigitCode(d), d);
  }

  /** "end" after a frame number on the NEC remote seeks to the frame, but
      the button's own 46 ms acknowledgement replaces the seek's: the ACK
      line and the seek end after 46 ms whatever the distance. */
  lemma NecEndSeeksFrame(p: Player, now: nat)
    requires Valid(p) && p.state != Stopped && p.seekState == SeekFrame
    ensures var r := NecSeekKey(p, EndKey, now);
      && r.state == Frozen && r.seeking && r.seekState == SeekNone
      && r.currentFrame == SeekTarget(p.seekNum % FrameDigits)
      && r.ackDeadline == Some(AckDeadline(now, AckMs))
  {
  }

  /** "end" after a chapter number on the NEC remote seeks to the first
      frame of the chapter, keeping the last two digits; a chapter the disc
      lacks is not searched for, but the button is still acknowledged. */
  lemma NecEndSeeksChapter(p: Player, now: nat)
    requires Valid(p) && p.state != Stopped && p.seekState == SeekChapter
    ensures var r := NecSeekKey(p, EndKey, now);
      var first := ChapterFrame(p.disc.value, p.seekNum % ChapterDigits);
      && r.seekState == SeekNone && r.ackDeadline == Some(AckDeadline(now, AckMs))
      && (first != 0 ==> r.state == Frozen && r.seeking && r.currentFrame == SeekTarget(first))
      && (first == 0 ==> r.state == p.state && r.currentFrame == p.currentFrame && r.seeking == p.seeking)
  {
  }

  /** "M+" switches to multispeed at the current speed, with the tick count
      of that speed, and is acknowledged; number entry is not disturbed. */
  lemma NecMultiForwardEntersMultispeed(p: Player, now: nat)
    requires Valid(p) && p.state != Stopped && p.lastNecTime <= now
    requires p.lastNecCode != 0x1a
    ensures var r := RemoteButtonNec(p, PioneerCustom, 0x1a, now);
      && r.state == PlayingMultispeed && r.frameStep == FrameStepFor(p.playingSpeed)
      && r.playingSpeed == p.playingSpeed && r.currentFrame == p.currentFrame
      && r.seekState == p.seekState && r.seekNum == p.seekNum
      && r.ackDeadline == Some(AckDeadline(now, AckMs)) && r.frameStep >= 1
  {
    assert NecKeyOf(0x1a) == MultiForwardKey;
    var q := p.(lastNecTime := now, lastNecCode := 0x1a);
    var s := NecSeekKey(q, MultiForwardKey, now);
    assert s == SetAck(NecMotionEffect(q, MultiForwardKey).0, now, AckMs);
    assert NecTransport(s, MultiForwardKey, now) == s;
  }

  /** "X+" forgets the wait frame and the number being entered; pressed
      twice it always leaves number entry. */
  lemma NecClearForgetsWaitFrame(p: Player, now: nat)
    requires p.disc.Some?
    ensures var r := NecSeekKey(p, ClearKey, now);
      && r.waitFrame == 0 && r.seekNum == 0 && ExtAck(r)
      && CheckWaitFrame(r) == r
      && (p.seekState == SeekNone || p.seekNum == 0 ==> r.seekState == SeekNone)
      && NecSeekKey(r, ClearKey, now).seekState == SeekNone
  {
  }

  /** "chapter" starts entering a chapter number; it is acknowledged exactly
      when the disc has a chapter 0, and otherwise the ACK line is left as
      it was. */
  lemma NecChapterKeyAckedIffChapterZero(p: Player, now: nat)
    requires p.disc.Some?
    ensures var r := NecSeekKey(p, ChapterKey, now);
      && r.seekState == SeekChapter && r.seekNum == 0
      && (ChapterFrame(p.disc.value, 0) != 0 ==> r.ack && r.ackDeadline == Some(AckDeadline(now, AckMs)))
      && (ChapterFrame(p.disc.value, 0) == 0 ==>
            r.ack == p.ack && r.foundFrame == p.foundFrame && r.ackDeadline == p.ackDeadline)
  {
  }

  /** "wait frame", a number and "end" set the frame at which the ACK line
      rises again; once playing reaches it, the line is up. */
  lemma NecWaitFrameReached(p: Player, now: nat)
    requires Valid(p) && p.state != Stopped && p.seekState == SeekWait
    requires p.seekNum % FrameDigits != 0
    ensures var r := NecSeekKey(p, EndKey, now);
      && r.waitFrame == p.seekNum % FrameDigits && r.seekState == SeekNone
      && (r.currentFrame == r.waitFrame ==> ExtAck(NextFrame(AckExpired(r))))
  {
  }
}

=== FILE: remote_decoder.dfy ===
/**
 * The pulse-width decoder behind the laserdisc player's remote-control input.
 *
 * The MSX side toggles one control line; every change of level is an edge,
 * and the time since the previous edge (in microseconds) tells the decoder
 * whether it saw a header, a data space, a gap or noise.  Two wire protocols
 * share the decoder:
 *  - the NEC infrared protocol: a long header, then 32 data bits made of a
 *    custom byte, its complement, a code byte and its complement;
 *  - the Pioneer LD-1100 (PR-8210 compatible) protocol: a short header, then
 *    30 data bits sent as three copies of one 10-bit group, with a long gap
 *    after bit 10 and after bit 20.
 * Bits are shifted into the low end of a 32-bit register, most significant
 * first.
 */
module RemoteDecoder {
  import opened Wrappers
  import opened RemoteWords

  /** The decoder's states, named after the part of a frame expected next. */
  datatype RemoteState =
    | Idle
    | HeaderPulse
    | NecHeaderSpace
    | NecBitsPulse
    | NecBitsSpace
    | NecRepeatPulse
    | Ld1100Gap
    | Ld1100SeenGap
    | Ld1100BitsPulse
    | Ld1100BitsSpace

  /** Decoder registers: the current state, the bits shifted in so far, how
      many there were, and the line level after the last edge. */
  datatype Decoder = Decoder(state: RemoteState, bits: bv32, bitNr: nat, lastBit: bool)

  /** What a complete frame hands on to the player. */
  datatype RemoteEvent =
    | NecButton(custom: bv32, code: bv32) // a NEC word whose complements matched (both bytes)
    | Ld1100Word(word: bv32)              // a 30-bit LD-1100 word, not yet validated
    | NecRepeat                           // a NEC repeat frame

  /** The decoder when the player is constructed: idle, line low. */
  const Initial := Decoder(Idle, 0, 0, false)

  /** Bits per frame of each protocol, and the LD-1100 group length. */
  const NecFrameBits := 32
  const Ld1100FrameBits := 30
  const Ld1100GroupBits := 10

  /** `lo <= usec < hi`: the half-open acceptance windows the decoder uses. */
  predicate InWindow(usec: nat, lo: nat, hi: nat) {
    lo <= usec < hi
  }

  /** The register after shifting one more bit into its low end
      (`(remoteBits << 1) | bit`, wrapping at 32 bits). */
  function ShiftBit(bits: bv32, bit: bool): bv32 {
    (bits << 1) | (if bit then 1 else 0)
  }

  /** The reaction to one edge, the level having changed to `bit`, `usec`
      microseconds after the previous edge.  Returns the new decoder and the
      event a completed frame produces. */
  function Transition(d: Decoder, bit: bool, usec: nat): (Decoder, Option<RemoteEvent>)
  {
    match d.state
    case Idle =>
      if bit then (d.(bits := 0, bitNr := 0, state := HeaderPulse), None)
      else (d, None)
    case HeaderPulse =>
      if InWindow(usec, 8000, 8400) then (d.(state := NecHeaderSpace), None)
      else if InWindow(usec, 140, 280) then (d.(state := Ld1100BitsSpace), None)
      else (d.(state := Idle), None)
    // LD-1100
    case Ld1100BitsSpace =>
      if InWindow(usec, 450, 550) then
        (d.(bits := ShiftBit(d.bits, false), state := Ld1100BitsPulse, bitNr := d.bitNr + 1), None)
      else if InWindow(usec, 1350, 1650) then
        (d.(bits := ShiftBit(d.bits, true), state := Ld1100BitsPulse, bitNr := d.bitNr + 1), None)
      else (d.(state := Idle), None)
    case Ld1100SeenGap => Ld1100Pulse(d, usec)
    case Ld1100BitsPulse => Ld1100Pulse(d, usec)
    case Ld1100Gap =>
      if InWindow(usec, 9000, 11000) then (d.(state := Ld1100SeenGap), None)
      else (d.(state := Idle), None)
    // NEC
    case NecHeaderSpace =>
      if InWindow(usec, 3800, 4200) then (d.(state := NecBitsPulse), None)
      else if InWindow(usec, 2000, 2400) then (d.(state := NecRepeatPulse), None)
      else (d.(state := Idle), None)
    case NecBitsPulse =>
      if InWindow(usec, 400, 700) then
        if d.bitNr == NecFrameBits then
          var ev := if NecWordValid(d.bits) then Some(NecButton(NecCustom(d.bits), NecCode(d.bits))) else None;
          (d.(state := Idle), ev)
        else (d.(state := NecBitsSpace), None)
      else (d.(state := Idle), None)
    case NecBitsSpace =>
      if InWindow(usec, 1400, 1600) then
        (d.(bits := ShiftBit(d.bits, true), bitNr := d.bitNr + 1, state := NecBitsPulse), None)
      else if InWindow(usec, 400, 700) then
        (d.(bits := ShiftBit(d.bits, false), bitNr := d.bitNr + 1, state := NecBitsPulse), None)
      else (d.(state := Idle), None)
    case NecRepeatPulse =>
      (d.(state := Idle), if InWindow(usec, 400, 700) then Some(NecRepeat) else None)
  }

  /** The pulse that ends an LD-1100 bit (shared by the bit-pulse and the
      seen-gap states): after bit 30 the word is handed on; after bits 10 and
      20 a gap must follow unless it has just been seen. */
  function Ld1100Pulse(d: Decoder, usec: nat): (Decoder, Option<RemoteEvent>)
    requires d.state == Ld1100BitsPulse || d.state == Ld1100SeenGap
  {
    if InWindow(usec, 225, 275) then
      if d.bitNr == Ld1100FrameBits then (d.(state := Idle), Some(Ld1100Word(d.bits)))
      else if (d.bitNr == 10 || d.bitNr == 20) && d.state != Ld1100SeenGap then (d.(state := Ld1100Gap), None)
      else (d.(state := Ld1100BitsSpace), None)
    else (d.(state := Idle), None)
  }

  /** One change request on the control line: an unchanged level is ignored;
      otherwise the level is recorded and the state machine advances. */
  function Step(d: Decoder, bit: bool, usec: nat): (r: (Decoder, Option<RemoteEvent>))
    ensures bit == d.lastBit ==> r == (d, None)
    ensures bit != d.lastBit ==> r.0.lastBit == bit
    // from idle only a rising edge starts a frame, and it clears the register
    ensures bit != d.lastBit && d.state == Idle ==>
              r.1.None? && (r.0.state == HeaderPulse <==> bit)
              && (bit ==> r.0.bits == 0 && r.0.bitNr == 0)
  {
    if bit == d.lastBit then (d, None)
    else Transition(d.(lastBit := bit), bit, usec)
  }

  /** The bounds on the bit counter in every state: the NEC path never
      counts beyond 32 bits, the LD-1100 path never beyond 30, and a gap is
      only expected after bit 10 or bit 20. */
  ghost predicate Inv(d: Decoder) {
    match d.state
    case Idle => d.bitNr <= NecFrameBits
    case HeaderPulse => d.bitNr == 0
    case NecHeaderSpace => d.bitNr == 0
    case NecRepeatPulse => d.bitNr == 0
    case NecBitsPulse => d.bitNr <= NecFrameBits
    case NecBitsSpace => d.bitNr < NecFrameBits
    case Ld1100BitsSpace => d.bitNr < Ld1100FrameBits
    case Ld1100BitsPulse => 1 <= d.bitNr <= Ld1100FrameBits
    case Ld1100Gap => d.bitNr == 10 || d.bitNr == 20
    case Ld1100SeenGap => d.bitNr == 10 || d.bitNr == 20
  }

  /** The acceptance windows of each state: a duration outside all of them
      aborts the frame. */
  predicate Accepted(s: RemoteState, usec: nat) {
    match s
    case Idle => true
    case HeaderPulse => InWindow(usec, 8000, 8400) || InWindow(usec, 140, 280)
    case NecHeaderSpace => InWindow(usec, 3800, 4200) || InWindow(usec, 2000, 2400)
    case NecBitsPulse => InWindow(usec, 400, 700)
    case NecBitsSpace => InWindow(usec, 1400, 1600) || InWindow(usec, 400, 700)
    case NecRepeatPulse => InWindow(usec, 400, 700)
    case Ld1100Gap => InWindow(usec, 9000, 11000)
    case Ld1100SeenGap => InWindow(usec, 225, 275)
    case Ld1100BitsPulse => InWindow(usec, 225, 275)
    case Ld1100BitsSpace => InWindow(usec, 450, 550) || InWindow(usec, 1350, 1650)
  }

  /** States in which the decoder is in the middle of a data bit. */
  predicate IsDataSpace(s: RemoteState) {
    s == NecBitsSpace || s == Ld1100BitsSpace
  }

  /** Every edge keeps the counter bounds; the counter grows by at most one
      per edge. */
  lemma StepKeepsInv(d: Decoder, bit: bool, usec: nat)
    requires Inv(d)
    ensures Inv(Step(d, bit, usec).0)
    ensures Step(d, bit, usec).0.bitNr <= d.bitNr + 1
  {
  }

  /** In every state, a duration outside the state's acceptance windows
      returns the decoder to idle without producing an event. */
  lemma OutsideWindowResets(d: Decoder, bit: bool, usec: nat)
    requires bit != d.lastBit && d.state != Idle && !Accepted(d.state, usec)
    ensures Step(d, bit, usec).0.state == Idle
    ensures Step(d, bit, usec).1 == None
  {
  }

  /** An accepted NEC data space shifts exactly one bit into the low end of
      the register and counts it: 1400-1599 us gives a 1, 400-699 us a 0. */
  lemma NecSpaceShiftsOneBit(d: Decoder, bit: bool, usec: nat)
    requires bit != d.lastBit && d.state == NecBitsSpace
    requires InWindow(usec, 1400, 1600) || InWindow(usec, 400, 700)
    ensures var r := Step(d, bit, usec).0;
      && r.state == NecBitsPulse
      && r.bitNr == d.bitNr + 1
      && r.bits >> 1 == d.bits & 0x7fff_ffff
      && (r.bits & 1 == 1 <==> InWindow(usec, 1400, 1600))
  {
  }

  /** An accepted LD-1100 data space shifts exactly one bit into the low end
      of the register and counts it: 1350-1649 us gives a 1, 450-549 us a 0. */
  lemma Ld1100SpaceShiftsOneBit(d: Decoder, bit: bool, usec: nat)
    requires bit != d.lastBit && d.state == Ld1100BitsSpace
    requires InWindow(usec, 450, 550) || InWindow(usec, 1350, 1650)
    ensures var r := Step(d, bit, usec).0;
      && r.state == Ld1100BitsPulse
      && r.bitNr == d.bitNr + 1
      && r.bits >> 1 == d.bits & 0x7fff_ffff
      && (r.bits & 1 == 1 <==> InWindow(usec, 1350, 1650))
  {
  }

  /** Only the data spaces touch the register: every other edge after the
      start of a frame leaves the bits and the counter as they were. */
  lemma OnlyDataSpacesShift(d: Decoder, bit: bool, usec: nat)
    requires bit != d.lastBit && d.state != Idle && !IsDataSpace(d.state)
    ensures Step(d, bit, usec).0.bits == d.bits
    ensures Step(d, bit, usec).0.bitNr == d.bitNr
  {
  }

  /** The pulse after the last bit of a frame ends the frame whatever its
      length: after 32 NEC bits or after 30 LD-1100 bits the decoder is idle
      again. */
  lemma FinalPulseEndsFrame(d: Decoder, bit: bool, usec: nat)
    requires bit != d.lastBit
    requires (d.state == NecBitsPulse && d.bitNr == NecFrameBits)
          || (d.state == Ld1100BitsPulse && d.bitNr == Ld1100FrameBits)
    ensures Step(d, bit, usec).0.state == Idle
  {
  }
}

=== FILE: remote_frames.dfy ===
/**
 * Whole remote-control frames as sequences of edges, and the round trip
 * through the decoder: a NEC or LD-1100 frame whose pulse and space lengths
 * lie inside the decoder's windows is decoded back to the word it carries.
 */
module RemoteFrames {
  import opened Wrappers
  import opened RemoteWords
  import opened RemoteDecoder

  /** One change of the control line: the new level and the time since the
      previous change, in microseconds. */
  datatype Edge = Edge(level: bool, usec: nat)

  /** A state machine `f` fed a sequence of inputs, with its outputs
      concatenated in order. */
  function Fold<S, E, V>(f: (S, E) -> (S, seq<V>), s: S, es: seq<E>): (S, seq<V>)
    decreases |es|
  {
    if es == [] then (s, [])
    else
      var first := f(s, es[0]);
      var rest := Fold(f, first.0, es[1..]);
      (rest.0, first.1 + rest.1)
  }

  /** Folding over two sequences one after the other is folding over their
      concatenation. */
  lemma {:induction false} FoldAppend<S, E, V>(f: (S, E) -> (S, seq<V>), s: S, a: seq<E>, b: seq<E>)
    ensures Fold(f, s, a + b) == (Fold(f, Fold(f, s, a).0, b).0, Fold(f, s, a).1 + Fold(f, Fold(f, s, a).0, b).1)
    decreases |a|
  {
    if a == [] {
      assert a + b == b;
      var r := Fold(f, s, b);
      assert [] + r.1 == r.1;
      assert r == (r.0, r.1);
    } else {
      var first := f(s, a[0]);
      var ra := Fold(f, first.0, a[1..]);
      var rb := Fold(f, ra.0, b);
      assert (a + b)[0] == a[0];
      assert (a + b)[1..] == a[1..] + b;
      FoldAppend(f, first.0, a[1..], b);
      assert first.1 + (ra.1 + rb.1) == (first.1 + ra.1) + rb.1;
    }
  }

  /** Folding over one input is one application. */
  lemma FoldOne<S, E, V>(f: (S, E) -> (S, seq<V>), s: S, e: E)
    ensures Fold(f, s, [e]) == f(s, e)
  {
    assert [e][1..] == [];
    assert f(s, e).1 + [] == f(s, e).1;
  }

  /** One edge seen by the decoder, its event as a sequence of zero or one. */
  function StepEdge(d: Decoder, e: Edge): (Decoder, seq<RemoteEvent>) {
    var r := Step(d, e.level, e.usec);
    (r.0, r.1.ToSeq())
  }

  /** The decoder fed a sequence of edges, with the events it produced in
      order. */
  function Run(d: Decoder, edges: seq<Edge>): (Decoder, seq<RemoteEvent>) {
    Fold(StepEdge, d, edges)
  }

  /** Running two edge sequences one after the other is running their
      concatenation. */
  lemma RunAppend(d: Decoder, a: seq<Edge>, b: seq<Edge>)
    ensures Run(d, a + b) == (Run(Run(d, a).0, b).0, Run(d, a).1 + Run(Run(d, a).0, b).1)
  {
    FoldAppend(StepEdge, d, a, b);
  }

  /** Running one edge is one decoder step. */
  lemma RunOne(d: Decoder, e: Edge)
    ensures Run(d, [e]) == StepEdge(d, e)
  {
    FoldOne(StepEdge, d, e);
  }

  /** Running a sequence that starts with `e` is one step, then the rest. */
  lemma RunCons(d: Decoder, e: Edge, rest: seq<Edge>)
    ensures Run(d, [e] + rest)
         == (Run(StepEdge(d, e).0, rest).0, StepEdge(d, e).1 + Run(StepEdge(d, e).0, rest).1)
  {
    RunAppend(d, [e], rest);
    RunOne(d, e);
  }

  /** A quiet run followed by another run. */
  lemma RunQuietThen(d: Decoder, a: seq<Edge>, b: seq<Edge>, mid: Decoder, last: Decoder, evs: seq<RemoteEvent>)
    requires Run(d, a) == (mid, []) && Run(mid, b) == (last, evs)
    ensures Run(d, a + b) == (last, evs)
  {
    RunAppend(d, a, b);
    assert [] + evs == evs;
  }

  /** An edge that produces no event, followed by a run of the rest. */
  lemma RunQuiet(d: Decoder, e: Edge, rest: seq<Edge>, mid: Decoder, last: Decoder, evs: seq<RemoteEvent>)
    requires StepEdge(d, e) == (mid, []) && Run(mid, rest) == (last, evs)
    ensures Run(d, [e] + rest) == (last, evs)
  {
    RunCons(d, e, rest);
    assert [] + evs == evs;
  }

  /** The register after shifting in `bs`, first element first. */
  function ShiftIn(x: bv32, bs: seq<bool>): bv32
    decreases |bs|
  {
    if bs == [] then x else ShiftIn(ShiftBit(x, bs[0]), bs[1..])
  }

  lemma {:induction false} ShiftInAppend(x: bv32, a: seq<bool>, b: seq<bool>)
    ensures ShiftIn(x, a + b) == ShiftIn(ShiftIn(x, a), b)
    decreases |a|
  {
    if a == [] {
      assert a + b == b;
    } else {
      assert (a + b)[0] == a[0];
      assert (a + b)[1..] == a[1..] + b;
      ShiftInAppend(ShiftBit(x, a[0]), a[1..], b);
    }
  }

  /** The low `n` bits set. */
  function Mask(n: nat): bv32 {
    if n == 0 then 0 else (Mask(n - 1) << 1) | 1
  }

  lemma Mask30()
    ensures Mask(30) == 0x3fff_ffff
  {
    assert Mask(8) == 0xff;
    assert Mask(16) == 0xffff;
    assert Mask(24) == 0xff_ffff;
  }

  lemma Mask32()
    ensures Mask(32) == 0xffff_ffff
  {
    Mask30();
  }

  /** The low `n` bits of `w`, most significant first: the order in which
      both protocols send a word. */
  function WordBits(w: bv32, n: nat): (bs: seq<bool>)
    ensures |bs| == n
  {
    if n == 0 then [] else WordBits(w >> 1, n - 1) + [w & 1 == 1]
  }

  lemma ShiftOneRaw(w: bv32, m: bv32)
    ensures w & 1 == 1 ==> (((w >> 1) & m) << 1) | 1 == w & ((m << 1) | 1)
  {
  }

  lemma ShiftZeroRaw(w: bv32, m: bv32)
    ensures w & 1 != 1 ==> ((w >> 1) & m) << 1 == w & ((m << 1) | 1)
  {
  }

  lemma ShiftOne(w: bv32, m: bv32)
    requires w & 1 == 1
    ensures ShiftBit((w >> 1) & m, true) == w & ((m << 1) | 1)
  {
    ShiftOneRaw(w, m);
  }

  lemma ShiftZero(w: bv32, m: bv32)
    requires w & 1 != 1
    ensures ShiftBit((w >> 1) & m, false) == w & ((m << 1) | 1)
  {
    ShiftZeroRaw(w, m);
  }

  /** Shifting the lowest bit of `w` in after the `n - 1` bits above it
      gives the low `n` bits of `w`. */
  lemma ShiftBitMask(w: bv32, m: bv32)
    ensures ShiftBit((w >> 1) & m, w & 1 == 1) == w & ((m << 1) | 1)
  {
    var b := w & 1 == 1;
    if b {
      ShiftOne(w, m);
    } else {
      ShiftZero(w, m);
    }
  }

  /** Shifting in one more bit at the end is one more `ShiftBit`. */
  lemma ShiftInSnoc(x: bv32, bs: seq<bool>, b: bool)
    ensures ShiftIn(x, bs + [b]) == ShiftBit(ShiftIn(x, bs), b)
  {
    ShiftInAppend(x, bs, [b]);
    assert [b][1..] == [];
  }

  lemma ShiftInWordBitsGlue(w: bv32, n: nat, hi: seq<bool>, m: bv32, y: bv32, b: bool)
    requires n > 0
    requires WordBits(w, n) == hi + [b]
    requires Mask(n) == (m << 1) | 1
    requires ShiftIn(0, hi + [b]) == ShiftBit(y, b)
    requires ShiftBit(y, b) == w & ((m << 1) | 1)
    ensures ShiftIn(0, WordBits(w, n)) == w & Mask(n)
  {
  }

  /** The bits above the lowest, already shifted in, followed by the lowest
      bit. */
  lemma ShiftInLowBit(w: bv32, n: nat, hi: seq<bool>, b: bool, m: bv32, y: bv32)
    requires n > 0
    requires hi == WordBits(w >> 1, n - 1) && b == (w & 1 == 1) && m == Mask(n - 1) && y == ShiftIn(0, hi)
    requires y == (w >> 1) & m
    ensures ShiftIn(0, WordBits(w, n)) == w & Mask(n)
  {
    ShiftBitMask(w, m);
    ShiftInSnoc(0, hi, b);
    ShiftInWordBitsGlue(w, n, hi, m, y, b);
  }

  /** Shifting the low `n` bits of `w` into an empty register, most
      significant first, gives back exactly those bits. */
  predicate ShiftsBack(w: bv32, n: nat) {
    ShiftIn(0, WordBits(w, n)) == w & Mask(n)
  }

  lemma ShiftsBackZero(w: bv32)
    ensures ShiftsBack(w, 0)
  {
    assert w & 0 == 0;
  }

  lemma ShiftsBackStep(w: bv32, n: nat)
    requires n > 0 && ShiftsBack(w >> 1, n - 1)
    ensures ShiftsBack(w, n)
  {
    var hi := WordBits(w >> 1, n - 1);
    ShiftInLowBit(w, n, hi, w & 1 == 1, Mask(n - 1), ShiftIn(0, hi));
  }

  /** Every word and every width up to 32 shifts back. */
  lemma {:induction false} ShiftInWordBits(w: bv32, n: nat)
    ensures ShiftsBack(w, n)
  {
    if n == 0 {
      ShiftsBackZero(w);
    } else {
      ShiftInWordBits(w >> 1, n - 1);
      ShiftsBackStep(w, n);
    }
  }

  // ---------------------------------------------------------------- NEC

  /** Pulse and space lengths used to send a NEC frame. */
  datatype NecTiming = NecTiming(
    headerPulse: nat, headerSpace: nat, repeatSpace: nat,
    bitPulse: nat, zeroSpace: nat, oneSpace: nat)

  /** Every length lies inside the window the decoder accepts for it. */
  predicate NecTimingOk(t: NecTiming) {
    && InWindow(t.headerPulse, 8000, 8400)
    && InWindow(t.headerSpace, 3800, 4200)
    && InWindow(t.repeatSpace, 2000, 2400)
    && InWindow(t.bitPulse, 400, 700)
    && InWindow(t.zeroSpace, 400, 700)
    && InWindow(t.oneSpace, 1400, 1600)
  }

  /** Each data bit: a pulse, then a space whose length gives the bit. */
  function NecBitEdges(bs: seq<bool>, t: NecTiming): (edges: seq<Edge>)
    ensures |edges| == 2 * |bs|
  {
    if bs == [] then []
    else [Edge(false, t.bitPulse), Edge(true, if bs[0] then t.oneSpace else t.zeroSpace)]
         + NecBitEdges(bs[1..], t)
  }

  /** The start of a NEC data frame after `idle` microseconds of silence:
      the rising edge, the header pulse and the header space. */
  function NecHeader(t: NecTiming, idle: nat): seq<Edge> {
    [Edge(true, idle), Edge(false, t.headerPulse), Edge(true, t.headerSpace)]
  }

  /** A NEC data frame for the 32-bit word `w`: header, 32 bits, and the
      closing pulse. */
  function NecFrame(w: bv32, t: NecTiming, idle: nat): seq<Edge> {
    NecHeader(t, idle) + NecBitEdges(WordBits(w, NecFrameBits), t) + [Edge(false, t.bitPulse)]
  }

  /** A NEC repeat frame: header pulse, the short repeat space, one pulse. */
  function NecRepeatFrame(t: NecTiming, idle: nat): seq<Edge> {
    [Edge(true, idle), Edge(false, t.headerPulse), Edge(true, t.repeatSpace), Edge(false, t.bitPulse)]
  }

  /** The header takes an idle decoder to the first data bit with an empty
      register. */
  lemma NecHeaderRun(d: Decoder, t: NecTiming, idle: nat)
    requires NecTimingOk(t)
    requires d.state == Idle && !d.lastBit
    ensures Run(d, NecHeader(t, idle)) == (Decoder(NecBitsPulse, 0, 0, true), [])
  {
    var h := NecHeader(t, idle);
    var d1 := d.(lastBit := true, bits := 0, bitNr := 0, state := HeaderPulse);
    var d2 := d1.(lastBit := false, state := NecHeaderSpace);
    var d3 := Decoder(NecBitsPulse, 0, 0, true);
    assert StepEdge(d2, h[2]) == (d3, []);
    RunOne(d2, h[2]);
    assert StepEdge(d1, h[1]) == (d2, []);
    RunQuiet(d1, h[1], [h[2]], d2, d3, []);
    assert StepEdge(d, h[0]) == (d1, []);
    RunQuiet(d, h[0], [h[1]] + [h[2]], d1, d3, []);
    assert h == [h[0]] + ([h[1]] + [h[2]]);
  }

  /** The pulse after the 32nd bit ends the frame and reports the button
      when the complements match. */
  lemma NecClosingPulse(w: bv32, t: NecTiming)
    requires NecTimingOk(t)
    ensures Run(Decoder(NecBitsPulse, w, NecFrameBits, true), [Edge(false, t.bitPulse)])
         == (Decoder(Idle, w, NecFrameBits, false),
             if NecWordValid(w) then [NecButton(NecCustom(w), NecCode(w))] else [])
  {
    RunOne(Decoder(NecBitsPulse, w, NecFrameBits, true), Edge(false, t.bitPulse));
  }

  /** One NEC data bit before the 32nd: the pulse moves to the space, the
      space shifts the bit in. */
  lemma NecBitSteps(d: Decoder, b: bool, t: NecTiming)
    requires NecTimingOk(t)
    requires d.state == NecBitsPulse && d.lastBit && d.bitNr < NecFrameBits
    ensures StepEdge(d, Edge(false, t.bitPulse)) == (d.(lastBit := false, state := NecBitsSpace), [])
    ensures StepEdge(d.(lastBit := false, state := NecBitsSpace), Edge(true, if b then t.oneSpace else t.zeroSpace))
         == (d.(bits := ShiftBit(d.bits, b), bitNr := d.bitNr + 1), [])
  {
  }

  /** While fewer than 32 bits have arrived, each pulse-and-space pair shifts
      its bit into the register and nothing is reported. */
  lemma {:induction false} NecBitsRun(d: Decoder, bs: seq<bool>, t: NecTiming)
    requires NecTimingOk(t)
    requires d.state == NecBitsPulse && d.lastBit && d.bitNr + |bs| <= NecFrameBits
    ensures Run(d, NecBitEdges(bs, t)) == (d.(bits := ShiftIn(d.bits, bs), bitNr := d.bitNr + |bs|), [])
    decreases |bs|
  {
    if bs != [] {
      var space := if bs[0] then t.oneSpace else t.zeroSpace;
      var rest := NecBitEdges(bs[1..], t);
      var d1 := d.(lastBit := false, state := NecBitsSpace);
      var d2 := d.(bits := ShiftBit(d.bits, bs[0]), bitNr := d.bitNr + 1);
      var last := d.(bits := ShiftIn(d.bits, bs), bitNr := d.bitNr + |bs|);
      NecBitsRun(d2, bs[1..], t);
      assert Run(d2, rest) == (last, []);
      NecBitSteps(d, bs[0], t);
      RunQuiet(d1, Edge(true, space), rest, d2, last, []);
      RunQuiet(d, Edge(false, t.bitPulse), [Edge(true, space)] + rest, d1, last, []);
      assert NecBitEdges(bs, t) == [Edge(false, t.bitPulse)] + ([Edge(true, space)] + rest);
    }
  }

  /** Round trip: a NEC frame for any word, with any timing inside the
      windows, leaves the decoder idle holding the word and reports the
      button exactly when the word's complement bytes match. */
  lemma NecFrameRoundTrip(d: Decoder, w: bv32, t: NecTiming, idle: nat)
    requires NecTimingOk(t)
    requires d.state == Idle && !d.lastBit
    ensures Run(d, NecFrame(w, t, idle))
         == (Decoder(Idle, w, NecFrameBits, false),
             if NecWordValid(w) then [NecButton(NecCustom(w), NecCode(w))] else [])
  {
    var header := NecHeader(t, idle);
    var body := NecBitEdges(WordBits(w, NecFrameBits), t);
    var tail := [Edge(false, t.bitPulse)];
    var d3 := Decoder(NecBitsPulse, 0, 0, true);
    var d4 := Decoder(NecBitsPulse, w, NecFrameBits, true);
    NecHeaderRun(d, t, idle);
    NecBodyRun(w, t);
    NecClosingPulse(w, t);
    RunQuietThen(d, header, body, d3, d4, []);
    RunQuietThen(d, header + body, tail, d4, Decoder(Idle, w, NecFrameBits, false),
                 if NecWordValid(w) then [NecButton(NecCustom(w), NecCode(w))] else []);
  }

  /** The 32 data bits of `w`, from an empty register, leave exactly `w`. */
  lemma NecBodyRun(w: bv32, t: NecTiming)
    requires NecTimingOk(t)
    ensures Run(Decoder(NecBitsPulse, 0, 0, true), NecBitEdges(WordBits(w, NecFrameBits), t))
         == (Decoder(NecBitsPulse, w, NecFrameBits, true), [])
  {
    NecBitsRun(Decoder(NecBitsPulse, 0, 0, true), WordBits(w, NecFrameBits), t);
    ShiftInWordBits(w, NecFrameBits);
    Mask32();
  }

  /** The frame for a custom code and a button code decodes to exactly that
      button press. */
  lemma NecButtonRoundTrip(d: Decoder, custom: bv32, code: bv32, t: NecTiming, idle: nat)
    requires NecTimingOk(t)
    requires d.state == Idle && !d.lastBit
    requires custom <= 0xff && code <= 0xff
    ensures Run(d, NecFrame(NecWord(custom, code), t, idle)).1 == [NecButton(custom, code)]
    ensures Run(d, NecFrame(NecWord(custom, code), t, idle)).0.state == Idle
  {
    NecWordFields(custom, code);
    NecFrameRoundTrip(d, NecWord(custom, code), t, idle);
  }

  /** A repeat frame reports a repeat and leaves an empty register. */
  lemma NecRepeatRoundTrip(d: Decoder, t: NecTiming, idle: nat)
    requires NecTimingOk(t)
    requires d.state == Idle && !d.lastBit
    ensures Run(d, NecRepeatFrame(t, idle)) == (Decoder(Idle, 0, 0, false), [NecRepeat])
  {
    var f := NecRepeatFrame(t, idle);
    var d1 := d.(lastBit := true, bits := 0, bitNr := 0, state := HeaderPulse);
    var d2 := d1.(lastBit := false, state := NecHeaderSpace);
    var d3 := d2.(lastBit := true, state := NecRepeatPulse);
    var d4 := Decoder(Idle, 0, 0, false);
    assert StepEdge(d3, f[3]) == (d4, [NecRepeat]);
    RunOne(d3, f[3]);
    assert StepEdge(d2, f[2]) == (d3, []);
    RunQuiet(d2, f[2], [f[3]], d3, d4, [NecRepeat]);
    assert StepEdge(d1, f[1]) == (d2, []);
    RunQuiet(d1, f[1], [f[2]] + [f[3]], d2, d4, [NecRepeat]);
    assert StepEdge(d, f[0]) == (d1, []);
    RunQuiet(d, f[0], [f[1]] + ([f[2]] + [f[3]]), d1, d4, [NecRepeat]);
    assert f == [f[0]] + ([f[1]] + ([f[2]] + [f[3]]));
  }

  // ---------------------------------------------------------------- LD-1100

  /** Pulse and space lengths used to send an LD-1100 frame. */
  datatype Ld1100Timing = Ld1100Timing(
    headerPulse: nat, bitPulse: nat, zeroSpace: nat, oneSpace: nat, gap: nat)

  /** Every length lies inside the window the decoder accepts for it. */
  predicate Ld1100TimingOk(t: Ld1100Timing) {
    && InWindow(t.headerPulse, 140, 280)
    && InWindow(t.bitPulse, 225, 275)
    && InWindow(t.zeroSpace, 450, 550)
    && InWindow(t.oneSpace, 1350, 1650)
    && InWindow(t.gap, 9000, 11000)
  }

  /** Each data bit: a space whose length gives the bit, then a pulse. */
  function Ld1100BitEdges(bs: seq<bool>, t: Ld1100Timing): (edges: seq<Edge>)
    ensures |edges| == 2 * |bs|
  {
    if bs == [] then []
    else [Edge(true, if bs[0] then t.oneSpace else t.zeroSpace), Edge(false, t.bitPulse)]
         + Ld1100BitEdges(bs[1..], t)
  }

  lemma {:induction false} Ld1100BitEdgesAppend(a: seq<bool>, b: seq<bool>, t: Ld1100Timing)
    ensures Ld1100BitEdges(a + b, t) == Ld1100BitEdges(a, t) + Ld1100BitEdges(b, t)
    decreases |a|
  {
    if a == [] {
      assert a + b == b;
    } else {
      assert (a + b)[0] == a[0];
      assert (a + b)[1..] == a[1..] + b;
      Ld1100BitEdgesAppend(a[1..], b, t);
    }
  }

  /** The start of a frame: the rising edge and the short header pulse. */
  function Ld1100Header(t: Ld1100Timing, idle: nat): seq<Edge> {
    [Edge(true, idle), Edge(false, t.headerPulse)]
  }

  /** The long gap after the 10th and the 20th bit, and the pulse after it. */
  function Ld1100GapEdges(t: Ld1100Timing): seq<Edge> {
    [Edge(true, t.gap), Edge(false, t.bitPulse)]
  }

  /** An LD-1100 frame for the low 30 bits of `w`, most significant first:
      three groups of ten bits with a gap after the first two. */
  function Ld1100Frame(w: bv32, t: Ld1100Timing, idle: nat): seq<Edge> {
    Ld1100FrameOf(WordBits(w, Ld1100FrameBits), t, idle)
  }

  /** The header takes an idle decoder to the first data space with an empty
      register. */
  lemma Ld1100HeaderRun(d: Decoder, t: Ld1100Timing, idle: nat)
    requires Ld1100TimingOk(t)
    requires d.state == Idle && !d.lastBit
    ensures Run(d, Ld1100Header(t, idle)) == (Decoder(Ld1100BitsSpace, 0, 0, false), [])
  {
    var h := Ld1100Header(t, idle);
    var d1 := d.(lastBit := true, bits := 0, bitNr := 0, state := HeaderPulse);
    var d2 := Decoder(Ld1100BitsSpace, 0, 0, false);
    assert StepEdge(d1, h[1]) == (d2, []);
    RunOne(d1, h[1]);
    assert StepEdge(d, h[0]) == (d1, []);
    RunQuiet(d, h[0], [h[1]], d1, d2, []);
    assert h == [h[0]] + [h[1]];
  }

  /** The space of an LD-1100 bit shifts the bit in. */
  lemma Ld1100SpaceStep(d: Decoder, b: bool, t: Ld1100Timing)
    requires Ld1100TimingOk(t)
    requires d.state == Ld1100BitsSpace && !d.lastBit
    ensures StepEdge(d, Edge(true, if b then t.oneSpace else t.zeroSpace))
         == (d.(lastBit := true, state := Ld1100BitsPulse, bits := ShiftBit(d.bits, b), bitNr := d.bitNr + 1), [])
  {
  }

  /** The pulse that ends an LD-1100 bit: inside a group it waits for the
      next space, after bits 10 and 20 for a gap, and after bit 30 it
      reports the word. */
  lemma Ld1100PulseStep(d: Decoder, t: Ld1100Timing)
    requires Ld1100TimingOk(t)
    requires d.state == Ld1100BitsPulse && d.lastBit
    ensures d.bitNr != 10 && d.bitNr != 20 && d.bitNr != 30 ==>
      StepEdge(d, Edge(false, t.bitPulse)) == (d.(lastBit := false, state := Ld1100BitsSpace), [])
    ensures d.bitNr == 10 || d.bitNr == 20 ==>
      StepEdge(d, Edge(false, t.bitPulse)) == (d.(lastBit := false, state := Ld1100Gap), [])
    ensures d.bitNr == 30 ==>
      StepEdge(d, Edge(false, t.bitPulse)) == (d.(lastBit := false, state := Idle), [Ld1100Word(d.bits)])
  {
  }

  /** The gap and the pulse after it return to the data spaces without
      touching the register. */
  lemma Ld1100GapRun(d: Decoder, t: Ld1100Timing)
    requires Ld1100TimingOk(t)
    requires d.state == Ld1100Gap && !d.lastBit && (d.bitNr == 10 || d.bitNr == 20)
    ensures Run(d, Ld1100GapEdges(t)) == (d.(state := Ld1100BitsSpace), [])
  {
    var g := Ld1100GapEdges(t);
    var d1 := d.(lastBit := true, state := Ld1100SeenGap);
    var d2 := d.(state := Ld1100BitsSpace);
    assert StepEdge(d1, g[1]) == (d2, []);
    RunOne(d1, g[1]);
    assert StepEdge(d, g[0]) == (d1, []);
    RunQuiet(d, g[0], [g[1]], d1, d2, []);
    assert g == [g[0]] + [g[1]];
  }

  /** Shifting in a non-empty sequence is shifting in its first bit, then
      the rest. */
  lemma ShiftInFirst(d: Decoder, bs: seq<bool>)
    requires bs != []
    ensures var d2 := d.(bits := ShiftBit(d.bits, bs[0]), bitNr := d.bitNr + 1);
      d.(bits := ShiftIn(d.bits, bs), bitNr := d.bitNr + |bs|)
      == d2.(bits := ShiftIn(d2.bits, bs[1..]), bitNr := d2.bitNr + |bs[1..]|)
  {
  }

  lemma Ld1100BitEdgesCons(bs: seq<bool>, t: Ld1100Timing)
    requires bs != []
    ensures Ld1100BitEdges(bs, t)
         == [Edge(true, if bs[0] then t.oneSpace else t.zeroSpace)] + ([Edge(false, t.bitPulse)] + Ld1100BitEdges(bs[1..], t))
  {
  }

  /** One bit inside a group: its space and pulse shift it in and lead on
      to the edges after it. */
  lemma Ld1100BitPair(d: Decoder, b: bool, rest: seq<Edge>, t: Ld1100Timing, last: Decoder)
    requires Ld1100TimingOk(t)
    requires d.state == Ld1100BitsSpace && !d.lastBit
    requires d.bitNr + 1 != 10 && d.bitNr + 1 != 20 && d.bitNr + 1 != 30
    requires Run(d.(bits := ShiftBit(d.bits, b), bitNr := d.bitNr + 1), rest) == (last, [])
    ensures Run(d, [Edge(true, if b then t.oneSpace else t.zeroSpace)] + ([Edge(false, t.bitPulse)] + rest))
         == (last, [])
  {
    var space := if b then t.oneSpace else t.zeroSpace;
    var d1 := d.(lastBit := true, state := Ld1100BitsPulse, bits := ShiftBit(d.bits, b), bitNr := d.bitNr + 1);
    var d2 := d.(bits := ShiftBit(d.bits, b), bitNr := d.bitNr + 1);
    Ld1100PulseStep(d1, t);
    RunQuiet(d1, Edge(false, t.bitPulse), rest, d2, last, []);
    Ld1100SpaceStep(d, b, t);
    RunQuiet(d, Edge(true, space), [Edge(false, t.bitPulse)] + rest, d1, last, []);
  }

  /** Inside a group, each space-and-pulse pair shifts its bit into the
      register and nothing is reported. */
  lemma {:induction false} Ld1100BitsRun(d: Decoder, bs: seq<bool>, t: Ld1100Timing, base: nat)
    requires Ld1100TimingOk(t)
    requires d.state == Ld1100BitsSpace && !d.lastBit
    requires (base == 0 || base == 10 || base == 20) && base <= d.bitNr && d.bitNr + |bs| < base + 10
    ensures Run(d, Ld1100BitEdges(bs, t)) == (d.(bits := ShiftIn(d.bits, bs), bitNr := d.bitNr + |bs|), [])
    decreases |bs|
  {
    if bs != [] {
      var d2 := d.(bits := ShiftBit(d.bits, bs[0]), bitNr := d.bitNr + 1);
      var last := d.(bits := ShiftIn(d.bits, bs), bitNr := d.bitNr + |bs|);
      Ld1100BitsRun(d2, bs[1..], t, base);
      ShiftInFirst(d, bs);
      Ld1100BitPair(d, bs[0], Ld1100BitEdges(bs[1..], t), t, last);
      Ld1100BitEdgesCons(bs, t);
    }
  }

  /** The tenth bit of a group, from the space to the pulse that ends it. */
  lemma Ld1100GroupEnd(d: Decoder, b: bool, t: Ld1100Timing)
    requires Ld1100TimingOk(t)
    requires d.state == Ld1100BitsSpace && !d.lastBit
    requires d.bitNr == 9 || d.bitNr == 19 || d.bitNr == 29
    ensures var d2 := d.(bits := ShiftBit(d.bits, b), bitNr := d.bitNr + 1);
      Run(d, Ld1100BitEdges([b], t))
      == if d.bitNr == 29 then (d2.(state := Idle), [Ld1100Word(d2.bits)]) else (d2.(state := Ld1100Gap), [])
  {
    var space := if b then t.oneSpace else t.zeroSpace;
    var d1 := d.(lastBit := true, state := Ld1100BitsPulse, bits := ShiftBit(d.bits, b), bitNr := d.bitNr + 1);
    Ld1100SpaceStep(d, b, t);
    Ld1100PulseStep(d1, t);
    RunOne(d1, Edge(false, t.bitPulse));
    RunQuiet(d, Edge(true, space), [Edge(false, t.bitPulse)], d1,
             Run(d1, [Edge(false, t.bitPulse)]).0, Run(d1, [Edge(false, t.bitPulse)]).1);
    assert Ld1100BitEdges([b], t) == [Edge(true, space)] + [Edge(false, t.bitPulse)];
  }

  /** One of the first two groups, with the gap after it. */
  lemma Ld1100GroupRun(d: Decoder, bs: seq<bool>, t: Ld1100Timing)
    requires Ld1100TimingOk(t)
    requires d.state == Ld1100BitsSpace && !d.lastBit
    requires (d.bitNr == 0 || d.bitNr == 10) && |bs| == Ld1100GroupBits
    ensures Run(d, Ld1100BitEdges(bs, t) + Ld1100GapEdges(t))
         == (d.(bits := ShiftIn(d.bits, bs), bitNr := d.bitNr + Ld1100GroupBits), [])
  {
    var first := bs[..9];
    var d9 := d.(bits := ShiftIn(d.bits, first), bitNr := d.bitNr + 9);
    var d10 := d9.(bits := ShiftBit(d9.bits, bs[9]), bitNr := d.bitNr + 10, state := Ld1100Gap);
    var last := d.(bits := ShiftIn(d.bits, bs), bitNr := d.bitNr + 10);
    assert bs == first + [bs[9]];
    ShiftInSnoc(d.bits, first, bs[9]);
    assert last == d10.(state := Ld1100BitsSpace);
    Ld1100BitEdgesAppend(first, [bs[9]], t);
    Ld1100BitsRun(d, first, t, d.bitNr);
    Ld1100GroupEnd(d9, bs[9], t);
    Ld1100GapRun(d10, t);
    RunQuietThen(d9, Ld1100BitEdges([bs[9]], t), Ld1100GapEdges(t), d10, last, []);
    RunQuietThen(d, Ld1100BitEdges(first, t), Ld1100BitEdges([bs[9]], t) + Ld1100GapEdges(t), d9, last, []);
    assert Ld1100BitEdges(bs, t) + Ld1100GapEdges(t)
        == Ld1100BitEdges(first, t) + (Ld1100BitEdges([bs[9]], t) + Ld1100GapEdges(t));
  }

  /** The last group ends the frame and reports the register. */
  lemma Ld1100LastGroupRun(d: Decoder, bs: seq<bool>, t: Ld1100Timing)
    requires Ld1100TimingOk(t)
    requires d.state == Ld1100BitsSpace && !d.lastBit
    requires d.bitNr == 20 && |bs| == Ld1100GroupBits
    ensures Run(d, Ld1100BitEdges(bs, t))
         == (Decoder(Idle, ShiftIn(d.bits, bs), Ld1100FrameBits, false), [Ld1100Word(ShiftIn(d.bits, bs))])
  {
    var first := bs[..9];
    var d9 := d.(bits := ShiftIn(d.bits, first), bitNr := 29);
    assert bs == first + [bs[9]];
    ShiftInSnoc(d.bits, first, bs[9]);
    Ld1100BitEdgesAppend(first, [bs[9]], t);
    Ld1100BitsRun(d, first, t, 20);
    Ld1100GroupEnd(d9, bs[9], t);
    RunQuietThen(d, Ld1100BitEdges(first, t), Ld1100BitEdges([bs[9]], t), d9,
                 Decoder(Idle, ShiftIn(d.bits, bs), Ld1100FrameBits, false), [Ld1100Word(ShiftIn(d.bits, bs))]);
  }

  /** The edges of an LD-1100 frame carrying the 30 bits `bs`. */
  function Ld1100FrameOf(bs: seq<bool>, t: Ld1100Timing, idle: nat): seq<Edge>
    requires |bs| == Ld1100FrameBits
  {
    Ld1100Header(t, idle)
    + ((Ld1100BitEdges(bs[..10], t) + Ld1100GapEdges(t))
       + ((Ld1100BitEdges(bs[10..20], t) + Ld1100GapEdges(t)) + Ld1100BitEdges(bs[20..], t)))
  }

  /** The three groups after the header: the register ends up holding the
      30 bits, which are reported once. */
  lemma Ld1100GroupsRun(bs: seq<bool>, t: Ld1100Timing)
    requires Ld1100TimingOk(t)
    requires |bs| == Ld1100FrameBits
    ensures Run(Decoder(Ld1100BitsSpace, 0, 0, false),
                (Ld1100BitEdges(bs[..10], t) + Ld1100GapEdges(t))
                + ((Ld1100BitEdges(bs[10..20], t) + Ld1100GapEdges(t)) + Ld1100BitEdges(bs[20..], t)))
         == (Decoder(Idle, ShiftIn(0, bs), Ld1100FrameBits, false), [Ld1100Word(ShiftIn(0, bs))])
  {
    var g1, g2, g3 := bs[..10], bs[10..20], bs[20..];
    var x1 := ShiftIn(0, g1);
    var x2 := ShiftIn(x1, g2);
    var x3 := ShiftIn(x2, g3);
    var p1 := Ld1100BitEdges(g1, t) + Ld1100GapEdges(t);
    var p2 := Ld1100BitEdges(g2, t) + Ld1100GapEdges(t);
    var p3 := Ld1100BitEdges(g3, t);
    var d0 := Decoder(Ld1100BitsSpace, 0, 0, false);
    var d1 := Decoder(Ld1100BitsSpace, x1, 10, false);
    var d2 := Decoder(Ld1100BitsSpace, x2, 20, false);
    var done := Decoder(Idle, x3, Ld1100FrameBits, false);
    Ld1100GroupRun(d0, g1, t);
    Ld1100GroupRun(d1, g2, t);
    Ld1100LastGroupRun(d2, g3, t);
    RunQuietThen(d1, p2, p3, d2, done, [Ld1100Word(x3)]);
    RunQuietThen(d0, p1, p2 + p3, d1, done, [Ld1100Word(x3)]);
    ShiftInGroups(bs, g1, g2, g3, x1, x2, x3);
  }

  /** A frame carrying `bs` reports exactly the bits `bs` shifted in. */
  lemma Ld1100FrameOfRun(d: Decoder, bs: seq<bool>, t: Ld1100Timing, idle: nat)
    requires Ld1100TimingOk(t)
    requires d.state == Idle && !d.lastBit
    requires |bs| == Ld1100FrameBits
    ensures Run(d, Ld1100FrameOf(bs, t, idle))
         == (Decoder(Idle, ShiftIn(0, bs), Ld1100FrameBits, false), [Ld1100Word(ShiftIn(0, bs))])
  {
    var h := Ld1100Header(t, idle);
    var rest := (Ld1100BitEdges(bs[..10], t) + Ld1100GapEdges(t))
                + ((Ld1100BitEdges(bs[10..20], t) + Ld1100GapEdges(t)) + Ld1100BitEdges(bs[20..], t));
    Ld1100HeaderRun(d, t, idle);
    Ld1100GroupsRun(bs, t);
    RunQuietThen(d, h, rest, Decoder(Ld1100BitsSpace, 0, 0, false),
                 Decoder(Idle, ShiftIn(0, bs), Ld1100FrameBits, false), [Ld1100Word(ShiftIn(0, bs))]);
  }

  /** Round trip: an LD-1100 frame for any word, with any timing inside the
      windows, reports the low 30 bits of the word, once. */
  lemma Ld1100FrameRoundTrip(d: Decoder, w: bv32, t: Ld1100Timing, idle: nat)
    requires Ld1100TimingOk(t)
    requires d.state == Idle && !d.lastBit
    ensures Run(d, Ld1100Frame(w, t, idle))
         == (Decoder(Idle, w & 0x3fff_ffff, Ld1100FrameBits, false), [Ld1100Word(w & 0x3fff_ffff)])
  {
    Ld1100FrameOfRun(d, WordBits(w, Ld1100FrameBits), t, idle);
    Ld1100WordBitsBack(w);
  }

  /** Three groups shifted in one after the other are the whole sequence
      shifted in. */
  lemma ShiftInGroups(bs: seq<bool>, g1: seq<bool>, g2: seq<bool>, g3: seq<bool>, x1: bv32, x2: bv32, x3: bv32)
    requires |bs| == 30 && g1 == bs[..10] && g2 == bs[10..20] && g3 == bs[20..]
    requires x1 == ShiftIn(0, g1) && x2 == ShiftIn(x1, g2) && x3 == ShiftIn(x2, g3)
    ensures x3 == ShiftIn(0, bs)
  {
    assert bs == (g1 + g2) + g3;
    ShiftInAppend(0, g1, g2);
    ShiftInAppend(0, g1 + g2, g3);
  }

  /** The 30 bits of an LD-1100 frame shift back to the low 30 bits of the
      word. */
  lemma Ld1100WordBitsBack(w: bv32)
    ensures ShiftIn(0, WordBits(w, Ld1100FrameBits)) == w & 0x3fff_ffff
  {
    ShiftInWordBits(w, Ld1100FrameBits);
    Mask30();
  }

  /** The frame for an LD-1100 command decodes to one word that passes the
      player's check and carries that command. */
  lemma Ld1100CommandRoundTrip(d: Decoder, command: bv32, t: Ld1100Timing, idle: nat)
    requires Ld1100TimingOk(t)
    requires d.state == Idle && !d.lastBit
    requires command <= 0x1f
    ensures var w := Ld1100WordOf(Ld1100GroupOf(command));
      && Run(d, Ld1100Frame(w, t, idle)).1 == [Ld1100Word(w)]
      && Ld1100Valid(w) && Ld1100Command(w) == command
  {
    var w := Ld1100WordOf(Ld1100GroupOf(command));
    Ld1100WordFields(command);
    Ld1100FrameRoundTrip(d, w, t, idle);
  }
}

=== FILE: remote_words.dfy ===
/**
 * The bit layout of the code words the laserdisc remote protocols carry, as
 * the decoder reads them from its 32-bit shift register.
 */
module RemoteWords {

  /** The four bytes of a NEC word, as the decoder extracts them.  The two
      complement bytes are read from the inverted register. */
  function NecCustom(w: bv32): bv32 { (w >> 24) & 0xff }
  function NecCustomCompl(w: bv32): bv32 { (!w >> 16) & 0xff }
  function NecCode(w: bv32): bv32 { (w >> 8) & 0xff }
  function NecCodeCompl(w: bv32): bv32 { (!w >> 0) & 0xff }

  /** The 32-bit NEC word a remote sends for `custom` and `code`. */
  function NecWord(custom: bv32, code: bv32): bv32 {
    (custom << 24) | ((custom ^ 0xff) << 16) | (code << 8) | (code ^ 0xff)
  }

  /** A NEC word is dispatched only when both complement bytes match. */
  predicate NecWordValid(w: bv32) {
    NecCustom(w) == NecCustomCompl(w) && NecCode(w) == NecCodeCompl(w)
  }

  /** The NEC check accepts exactly the words made of a custom byte, its
      complement, a code byte and its complement. */
  lemma NecValidIff(w: bv32)
    ensures NecWordValid(w) <==> w == NecWord(NecCustom(w), NecCode(w))
  {
    if NecWordValid(w) {
      NecValidIsWord(w);
    }
    if w == NecWord(NecCustom(w), NecCode(w)) {
      NecWordIsValid(w);
    }
  }

  /** Reading back the fields of a NEC word gives the bytes it was built from. */
  lemma NecWordFields(custom: bv32, code: bv32)
    requires custom <= 0xff && code <= 0xff
    ensures NecWordValid(NecWord(custom, code))
    ensures NecCustom(NecWord(custom, code)) == custom
    ensures NecCode(NecWord(custom, code)) == code
  {
    NecFieldsRaw(custom, code);
  }

  lemma NecValidIsWord(w: bv32)
    requires NecWordValid(w)
    ensures w == NecWord(NecCustom(w), NecCode(w))
  {
    NecValidRaw(w);
  }

  lemma NecWordIsValid(w: bv32)
    requires w == NecWord(NecCustom(w), NecCode(w))
    ensures NecWordValid(w)
  {
    NecWordRaw(w);
  }

  // The two directions of NecValidIff on plain bit-vector expressions, which
  // the solver decides directly.

  lemma NecValidRaw(w: bv32)
    ensures ((w >> 24) & 0xff == (!w >> 16) & 0xff && (w >> 8) & 0xff == (!w >> 0) & 0xff)
        ==> w == (((w >> 24) & 0xff) << 24) | ((((w >> 24) & 0xff) ^ 0xff) << 16)
                | (((w >> 8) & 0xff) << 8) | (((w >> 8) & 0xff) ^ 0xff)
  {
  }

  lemma NecWordRaw(w: bv32)
    ensures w == (((w >> 24) & 0xff) << 24) | ((((w >> 24) & 0xff) ^ 0xff) << 16)
                | (((w >> 8) & 0xff) << 8) | (((w >> 8) & 0xff) ^ 0xff)
        ==> ((w >> 24) & 0xff == (!w >> 16) & 0xff && (w >> 8) & 0xff == (!w >> 0) & 0xff)
  {
  }

  lemma NecFieldsRaw(custom: bv32, code: bv32)
    ensures custom <= 0xff && code <= 0xff ==>
      var w := (custom << 24) | ((custom ^ 0xff) << 16) | (code << 8) | (code ^ 0xff);
      && (w >> 24) & 0xff == custom && (w >> 8) & 0xff == code
      && (w >> 24) & 0xff == (!w >> 16) & 0xff && (w >> 8) & 0xff == (!w >> 0) & 0xff
  {
  }

  /** LD-1100 words: each 10-bit group carries the command in bits 2-6,
      bit 7 set and bits 0, 1, 8 and 9 clear; a word is accepted only when
      its three groups are equal. */
  predicate Ld1100Valid(code: bv32) {
    && (code & 0x383) == 0x80
    && (code & 0x3ff) == ((code >> 10) & 0x3ff)
    && (code & 0x3ff) == ((code >> 20) & 0x3ff)
  }

  /** The five command bits of an LD-1100 word. */
  function Ld1100Command(code: bv32): bv32 {
    (code >> 2) & 0x1f
  }

  /** The 10-bit group that carries `command`. */
  function Ld1100GroupOf(command: bv32): bv32 {
    0x80 | (command << 2)
  }

  /** The 30-bit word made of three copies of `group`. */
  function Ld1100WordOf(group: bv32): bv32 {
    (group << 20) | (group << 10) | group
  }

  /** The LD-1100 check accepts exactly the words whose low 30 bits are
      three copies of a command's group (the two top bits are never looked
      at). */
  lemma Ld1100ValidIff(code: bv32)
    ensures Ld1100Valid(code) <==>
      code & 0x3fff_ffff == Ld1100WordOf(Ld1100GroupOf(Ld1100Command(code)))
  {
    if Ld1100Valid(code) {
      Ld1100ValidIsWord(code);
    }
    if code & 0x3fff_ffff == Ld1100WordOf(Ld1100GroupOf(Ld1100Command(code))) {
      Ld1100WordIsValid(code);
    }
  }

  /** The word sent for a command passes the check, carries that command
      and fits in the 30 bits the protocol sends. */
  lemma Ld1100WordFields(command: bv32)
    requires command <= 0x1f
    ensures Ld1100Valid(Ld1100WordOf(Ld1100GroupOf(command)))
    ensures Ld1100Command(Ld1100WordOf(Ld1100GroupOf(command))) == command
    ensures Ld1100WordOf(Ld1100GroupOf(command)) & 0x3fff_ffff == Ld1100WordOf(Ld1100GroupOf(command))
  {
    Ld1100FieldsRaw(command);
  }

  lemma Ld1100ValidIsWord(code: bv32)
    requires Ld1100Valid(code)
    ensures code & 0x3fff_ffff == Ld1100WordOf(Ld1100GroupOf(Ld1100Command(code)))
  {
    Ld1100ValidRaw(code);
  }

  lemma Ld1100WordIsValid(code: bv32)
    requires code & 0x3fff_ffff == Ld1100WordOf(Ld1100GroupOf(Ld1100Command(code)))
    ensures Ld1100Valid(code)
  {
    Ld1100WordRaw(code);
  }

  lemma Ld1100ValidRaw(code: bv32)
    ensures ((code & 0x383) == 0x80 && (code & 0x3ff) == ((code >> 10) & 0x3ff)
             && (code & 0x3ff) == ((code >> 20) & 0x3ff))
        ==> code & 0x3fff_ffff == ((0x80 | (((code >> 2) & 0x1f) << 2)) << 20)
                                | ((0x80 | (((code >> 2) & 0x1f) << 2)) << 10)
                                | (0x80 | (((code >> 2) & 0x1f) << 2))
  {
  }

  lemma Ld1100WordRaw(code: bv32)
    ensures code & 0x3fff_ffff == ((0x80 | (((code >> 2) & 0x1f) << 2)) << 20)
                                | ((0x80 | (((code >> 2) & 0x1f) << 2)) << 10)
                                | (0x80 | (((code >> 2) & 0x1f) << 2))
        ==> ((code & 0x383) == 0x80 && (code & 0x3ff) == ((code >> 10) & 0x3ff)
             && (code & 0x3ff) == ((code >> 20) & 0x3ff))
  {
  }

  lemma Ld1100FieldsRaw(command: bv32)
    ensures command <= 0x1f ==>
      var w := ((0x80 | (command << 2)) << 20) | ((0x80 | (command << 2)) << 10) | (0x80 | (command << 2));
      && (w & 0x383) == 0x80 && (w & 0x3ff) == ((w >> 10) & 0x3ff) && (w & 0x3ff) == ((w >> 20) & 0x3ff)
      && (w >> 2) & 0x1f == command
      && w & 0x3fff_ffff == w
  {
  }
}

=== FILE: wrappers.dfy ===
/** An optional value, shared by the laserdisc and CPU models. */
module Wrappers {

  /** A value that may be absent: a null pointer, a missing disc image,
      an event a step does not produce. */
  datatype Option<+T> = None | Some(value: T) {

    /** The option as a sequence of zero or one element. */
    function ToSeq(): (s: seq<T>)
      ensures |s| <= 1
      ensures Some? <==> |s| == 1
      ensures Some? ==> s[0] == value
    {
      match this
      case Some(v) => [v]
      case None => []
    }
  }
}
